=== FILE: README.md ===
# Route-table exporter for a Vue application, modelled in Dafny

`vue.js` is a one-shot diagnostic script. It finds the DOM node that hosts a
Vue application instance, then reads the Vue Router route table from that
instance. It flattens the nested table into one display record per route,
builds a CSV text from the records, and offers the text as a download. This
project models all of that logic except the download.

Modules:

| file | module | models |
|---|---|---|
| `root_locator.dfy` | `RootLocator` | `detectVueRoot`: breadth-first search over an abstract node tree |
| `router.dfy` | `RouterResolver` | `resolveVueRouter`: ordered accessors, each one throws, is falsy, or finds something |
| `paths.dfy` | `Paths` | the path join inside `traverseRoutes`: drop empty segments, join with `/`, collapse `/` runs |
| `component_name.dfy` | `ComponentName` | `resolveComponentName`, with `/return (\w+)/` as a string search |
| `routes.dfy` | `Routes` | `traverseRoutes` and the record it builds for each route |
| `csv.dfy` | `CsvExport` | the text built by `exportToCSV`, plus a reader for quoted fields that proves the escaping loses nothing |
| `analyze.dfy` | `Analyze` | `analyzeAndExport`: the stages composed, each one able to stop the run |
| `strings.dfy`, `wrappers.dfy` | `Strings`, `Wrappers` | JavaScript `||` on strings, `join`, ASCII `toLowerCase`, `Option` |

Modelling choices:
- A DOM node is `DomNode(vueInstance, vueApp, vnode, childNodes)`. The three flags are the
  `__vue__`, `__vue_app__` and `_vnode` markers.
- Each router accessor's outcome is a parameter: `Throws | Falsy | Found(routes)`.
  An empty routes array is `Found([])`, because arrays are truthy.
- A component reference is `Absent | StringRef(s) | ObjectRef(name, source)`. `source` is
  either the text `toString()` returns or `ToStringThrows`.
- A route's missing `children` array is the empty sequence. The code treats the two alike:
  `children?.length || 0` is 0 for both, and `forEach` over `[]` emits nothing.
- No number ever reaches a cell. The only numeric field is `childrenCount`, which the "Children" column does not read (`CsvExport.Cells`). `String(n)` is still modelled as `CsvExport.Decimal`.
- The `meta` field holds the text `JSON.stringify` would give. The `redirect` field holds the
  string form of the target.

Behaviour of the code worth noting, which the model keeps:
- The path join never adds a leading `/`. A top-level `"users"` resolves to `"users"` and its
  child `":id"` to `"users/:id"`, not `"/users"` and `"/users/:id"` (`Routes.NestedExample`).
- The router resolver accepts the first *truthy* result, not the first non-empty one. An empty
  routes array wins (`RouterResolver.EmptyRoutesAreFound`).
- The "Children" CSV column reads `item['children']`, but the record key is `childrenCount`, so
  the column is always empty (`CsvExport.Cells`).

## Model

| member | source | states |
|---|---|---|
| `RootLocator.DetectRoot` | vue.js:1-13 | The result, if any, carries a marker. It is at position `index` of level `depth` of the tree. No node on an earlier level, and no node before it on its own level, is marked, so it is the shallowest and leftmost marked node. It returns nothing exactly when no node in the tree is marked. |
| `ComponentName.WordRun` | vue.js:21 | The capture of `(\w+)` is the longest run of word characters at that position: every character is a word character, and the next one is not. |
| `ComponentName.FirstMatch` | vue.js:21 | Gives the leftmost position where `return ` is followed by a word character, or none when no position matches. |
| `ComponentName.ReturnCapture` | vue.js:21-22 | There is no capture exactly when the pattern matches nowhere. Otherwise the capture is the non-empty word run after `return ` at the leftmost match. |
| `ComponentName.Resolve` | vue.js:15-27 | Never returns an empty string. A falsy value, including `''`, gives `(no component)`. A non-empty string is returned unchanged. A truthy `name` is returned. Otherwise the result is `(dynamic)` exactly when `toString` throws or nothing matches; else it is the leftmost `return <word>` capture. |
| `ComponentName.FactoryExample` | vue.js:21-22 | A nameless component whose text is `{return Home;}` resolves to `Home`. |
| `RouterResolver.Probes` | vue.js:30-34 | One outcome per strategy, in declared order, each the outcome of that strategy's accessor. |
| `RouterResolver.FirstTruthy` | vue.js:36-48 | The result is none exactly when no accessor found anything. Otherwise it is the value of the first accessor, in order, that found something. |
| `RouterResolver.ResolveRouter` | vue.js:29-49 | The three strategies are tried in declared order. The routes returned come from the first strategy that yields a truthy value. The result is none only if every strategy throws or is falsy. |
| `RouterResolver.SkipsFailedAccessor` | vue.js:37-45 | A throwing or falsy accessor does not stop the search: the result is decided by the accessors after it. |
| `RouterResolver.LaterAccessorsIgnored` | vue.js:39-42 | Once an accessor has found something, accessors after it do not change the result. |
| `RouterResolver.SecondStrategyAlone` | vue.js:30-42 | If only the second strategy's path yields routes, resolution still succeeds, with that strategy's routes. |
| `RouterResolver.EmptyRoutesAreFound` | vue.js:38-41 | An empty routes array is truthy, so it is returned. |
| `Paths.Collapse` | vue.js:58 | The result has no `//`. It has the same non-`/` characters in the same order, and the same first and last characters. A string without `//` is unchanged. |
| `Paths.PartsAreSegments` | vue.js:58 | Every segment of a path is non-empty and holds no `/`. |
| `Paths.Parts` | vue.js:58 | The segments of a path, meaning its maximal runs of non-`/` characters, in order. A path that starts with a non-`/` character has a first segment that starts with that character. |
| `Paths.CollapseKeepsParts` | vue.js:58 | Collapsing keeps the segments exactly: each run of `/` between two segments becomes one `/`, and no segment is merged or split. |
| `Paths.CollapseUnique` | vue.js:58 | Any string with no `//`, the same segments as the input, and a leading or trailing `/` exactly when the input has one, is the collapse of the input. |
| `Paths.CollapseAbsorbs` | vue.js:58 | Collapsing a prefix first does not change the collapse of the whole string. |
| `Paths.CollapseIdempotent` | vue.js:58 | Collapsing twice gives the same result as collapsing once. |
| `Paths.Segments` | vue.js:55-56 | The filter keeps the parent path when it is non-empty and the own path when it is present and non-empty, in that order, and nothing else. Nothing is kept exactly when both are falsy, and two pieces exactly when both are truthy. |
| `Paths.JoinPath` | vue.js:55-58 | The resolved path has no `//`. Its non-`/` characters are the parent's followed by the own segment's. It is empty only when both parts are empty or absent. |
| `Paths.PartsSlashJoin` | vue.js:57 | Joining two strings with `/` concatenates their segments: the seam never merges two segments. |
| `Paths.JoinPathSegments` | vue.js:55-58 | The resolved path's segments are the parent's followed by the own path's. It starts with `/` exactly when the non-empty part that comes first does. It ends with `/` exactly when the last non-empty part does. |
| `Paths.JoinPathUnique` | vue.js:55-58 | Any string with no `//` and with the segments and end slashes that `JoinPathSegments` states is the resolved path. |
| `Paths.EmptySegmentKeepsParent` | vue.js:55-58 | A route with an empty or absent path gets exactly its parent's resolved path. |
| `Paths.TopLevelOnlyCollapses` | vue.js:55-58 | At top level the own segment is only collapsed. A leading `/` is kept if present and never added. |
| `Paths.BothSegmentsJoined` | vue.js:55-58 | When both segments are present, the result is their collapse joined by one `/`. |
| `Paths.JoinPathExtendsChain` | vue.js:55-58 | Joining a segment onto a resolved path gives the canonical path of the extended chain: the non-empty segments joined by `/` and then collapsed. |
| `Paths.SeamCollapses` | vue.js:55-58 | Joining `"/b"` onto `"a/"` gives `"a/b"`. |
| `Paths.ChildExample` | vue.js:55-58 | Joining `":id"` onto `"users"` gives `"users/:id"`. |
| `Strings.OrElse` | vue.js:61 | JavaScript `a \|\| b` on an optional string: the value when it is present and non-empty, else the fallback. |
| `Strings.JoinWith` | vue.js:57 | Joining no parts gives `''`. Joining one part gives that part, with no separator. |
| `Strings.JoinWithLength` | vue.js:57 | A joined text is exactly as long as its parts plus one separator between each pair of neighbours. |
| `Strings.JoinWithAvoids` | vue.js:82 | A character that is in no part and not in the separator is not in the joined text: joining adds only separators. |
| `Routes.AliasText` | vue.js:65 | No alias gives `''`, and so does an empty alias list. A single alias is kept. An alias list is joined with `", "`, so its length is the sum of the parts plus two per separator. |
| `Strings.SplitJoin` | vue.js:65 | Joining a non-empty list with a two-character separator, none of whose items contains the separator, and splitting the text on it, gives the list back. |
| `Routes.AliasRoundTrip` | vue.js:65 | The text of a non-empty alias list, none of whose aliases contains `", "`, splits on `", "` back into exactly the aliases in order. |
| `Routes.AliasExample` | vue.js:65 | The alias list `["a", "b"]` is shown as `"a, b"`. |
| `Routes.MakeRecord` | vue.js:60-68 | The name is the route's name when truthy, else `(unnamed)`, and is never empty. The path is the join of the parent path and the route's own path. The component is resolved. The redirect defaults to `''` and meta to `{}`. `childrenCount` is the number of direct children. |
| `Routes.Flatten` | vue.js:51-76 | Exactly one record is produced per route in the table, at every depth. |
| `Routes.FlattenRoute` | vue.js:54-75 | A route and everything below it give exactly one record per route in that subtree. |
| `Routes.FlattenAppend` | vue.js:54 | Siblings keep their source order: flattening a concatenation of route lists concatenates their flattenings. |
| `Routes.ParentFirst` | vue.js:70-74 | A route's own record comes first. Its children's records follow, flattened under the route's resolved path. |
| `Routes.ChildRecordUnderParent` | vue.js:72-73 | The record of child `j` comes right after the subtrees of the earlier children. It is built from the parent record's resolved path. |
| `Routes.FlattenIsPreOrder` | vue.js:54-75 | Record `i` is the record of the `i`-th route in the reference pre-order listing. Its path is the canonical join of that route's ancestor chain. |
| `Routes.TopLevelFlatten` | vue.js:51-76 | For the whole table with an empty starting path: the record count equals the number of routes; record `i` comes from the `i`-th route in pre-order; its path is the canonical join of all its ancestors' segments and its own; its children count equals that route's direct children. |
| `Routes.NestedExample` | vue.js:51-76 | The table `users` → `:id` flattens to `users` (`(unnamed)`, one child), then `users/:id`. |
| `CsvExport.CellText` | vue.js:84 | A falsy value (`undefined`, `''`, `0`) gives an empty cell. A string is kept as it is. |
| `CsvExport.Escape` | vue.js:85 | Escaping never shortens a field. |
| `CsvExport.EscapeNoQuote` | vue.js:85 | A field that contains no `"` is written unchanged. |
| `CsvExport.EscapeLength` | vue.js:85 | Escaping lengthens a field by exactly its number of `"` characters, one added per quote. |
| `Strings.LowerChar` | vue.js:84 | An ASCII capital becomes the lower-case letter 32 code points above it. Every other character is kept. |
| `Strings.Lower` | vue.js:84 | Lower-cases position by position, keeping the length, and leaves no ASCII capital. |
| `Strings.LowerIdempotent` | vue.js:84 | Lower-casing twice is the same as lower-casing once. |
| `CsvExport.Decimal` | vue.js:85 | The string form of a non-negative integer is non-empty and made only of decimal digits. |
| `CsvExport.Lookup` | vue.js:84 | Reading a property of a record object gives `undefined` exactly for names that are not record fields. The children count is the only number. |
| `CsvExport.Cells` | vue.js:83-84 | A record's cells are name, path, component, redirect, alias and meta in header order, then an empty Children cell. There is one cell per header. |
| `CsvExport.QuoteField` | vue.js:85 | A written field begins and ends with `"` and is at least two characters longer than the field. |
| `CsvExport.QuoteAll` | vue.js:83-85 | One written field per cell, in order: field `i` is cell `i`, quoted and escaped. |
| `CsvExport.RowTexts` | vue.js:83 | One row per record, in record order: row `i` is the row of record `i`. |
| `CsvExport.RowText` | vue.js:83-86 | A data row, read back on its own, gives exactly the record's cells, with nothing left over. |
| `CsvExport.HeaderLine` | vue.js:80-82 | The header row holds no `"` and no line break, so it is one line that no quoted field can be confused with. |
| `CsvExport.ToCsv` | vue.js:81-87 | The exported text is the header row, followed by each record's row in order, each row introduced by a line break. With no records it is the header row alone. |
| `CsvExport.ReadQuotedEscape` | vue.js:85 | Un-doubling the escaped field up to its closing quote recovers the original field and the rest of the text. |
| `CsvExport.ParseFieldQuote` | vue.js:85 | Reading a quoted field gives back exactly the field that was written. |
| `CsvExport.ParseRowJoin` | vue.js:83-86 | Reading a row of quoted, comma-separated fields gives back exactly those fields. |
| `CsvExport.ExportRoundTrip` | vue.js:80-87 | The text starts with the header line. Reading it back gives exactly one row per record, in order, each with that record's cells. |
| `Analyze.AnalyzeAndExport` | vue.js:107-123 | No root is found exactly when no node of the page is marked. Otherwise the root is the shallowest, leftmost marked node: it is at position `index` of level `depth`, and no node on an earlier level, or before it on its own level, is marked. Nothing is produced when no root is found or when no router is resolved. Otherwise the CSV text of the flattened table is produced. It has one record per route and reads back to those records' cells. |

## Left out

- The Blob, object URL and anchor element, `link.click()` and the `setTimeout` cleanup (vue.js:89-101) are host side effects. The model produces the CSV text that would be saved, and stops there.
- The `filename` parameter (vue.js:78) is only used by the download, so it is not modelled.
- All `console.*` output, including `console.table`, is diagnostics only.
- `JSON.stringify` of `meta` is a foreign serializer. `meta` is the serialized text, or absent. A serializer that throws is not modelled (see the `Analyze.AnalyzeAndExport` line below).
- `Function.prototype.toString` is replaced by given source text or a throw. The live DOM's `childNodes` is replaced by the finite `DomNode` tree. The optional-chaining property paths read by the three accessors are replaced by each accessor's outcome.
- The `try`/`catch` in `exportToCSV` and `analyzeAndExport` guards against exceptions that none of the modelled operations raises. The stack overflow and serializer errors named below are the cases the model does not reach. One example is a `null` entry in the routes array, where `route.name` would throw. Route tables here hold only route objects.
- A `name` or `alias` that is not a string, and a `redirect` object, are shown by their string form. They are modelled as that string.
- A cyclic route table makes the recursion of `traverseRoutes` (vue.js:54-74) overflow the call stack. The `catch` of vue.js:120-121 takes the error, and nothing is exported. A cyclic DOM tree makes the queue scan of `detectVueRoot` loop forever. Inductive datatypes exclude both.
- `Analyze.AnalyzeAndExport`: its `csv.Some? <==> root.Some? && ResolveRouter(...).Some?` assumes serialising `meta` always succeeds. `JSON.stringify` (vue.js:66) throws on a circular object or a BigInt, for example. The error is then caught at vue.js:120-121 and nothing is exported, even though a root and a router were found.
- `CsvExport.Escape`: its own contract states only that escaping never shortens a field. The identity on quote-free fields, the exact growth and the doubling of every `"` are separate lemmas (`CsvExport.EscapeNoQuote`, `CsvExport.EscapeLength`, `CsvExport.ReadQuotedEscape`).
- `Routes.AliasRoundTrip`: holds only for aliases that do not themselves contain `", "`. Such an alias makes the joined text ambiguous, so no reader can recover the list.
- `Strings.SplitJoin`: stated for two-character separators with two distinct characters, which covers the `", "` separator used in the export.
- `CsvExport.Decimal`: states that the result is non-empty and only digits, not that it is the shortest decimal numeral of `n`, because no number reaches a cell of the export.

=== FILE: analyze.dfy ===
/** `analyzeAndExport` (vue.js:107-123): locate the root, resolve the route
    table, flatten it and build the CSV text, stopping quietly at the first
    stage that finds nothing. Handing the text to the browser as a download
    is outside the model; the result here is the text that would be saved. */
module Analyze {
  import opened Wrappers
  import opened RootLocator
  import opened RouterResolver
  import opened Routes
  import opened CsvExport

  /** `probeOf(root)` gives, for the instance found on `root`, what each of
      the three router accessors yields. The root used is the shallowest,
      then leftmost, marked node of the page: it sits at position `index`
      of level `depth`, and no node on an earlier level or before it on its
      own level is marked. */
  method AnalyzeAndExport(page: DomNode, probeOf: DomNode -> (Strategy -> Access<seq<RouteNode>>))
    returns (root: Option<DomNode>, csv: Option<string>, ghost depth: nat, ghost index: nat)
    ensures root.None? <==> !AnyMarked(page)
    ensures root.Some? ==> Marked(root.value)
    ensures root.Some? ==>
      index < |Level([page], depth)| && Level([page], depth)[index] == root.value
    ensures root.Some? ==> forall e :: 0 <= e < depth ==> NoneMarked(Level([page], e))
    ensures root.Some? ==> NoneMarked(Level([page], depth)[..index])
    ensures csv.Some? <==> root.Some? && ResolveRouter(probeOf(root.value)).Some?
    ensures csv.Some? ==>
      var routes := ResolveRouter(probeOf(root.value)).value;
      var records := Flatten(routes, "");
      |records| == Routes.ForestSize(routes)
      && csv.value == ToCsv(records)
      && ParseCsv(csv.value) == Some(AllCells(records))
  {
    var found;
    found, depth, index := DetectRoot(page);
    root := found;
    if found.None? {
      return None, None, depth, index;
    }
    var routes := ResolveRouter(probeOf(found.value));
    if routes.None? {
      return found, None, depth, index;
    }
    var records := Flatten(routes.value, "");
    ExportRoundTrip(records);
    csv := Some(ToCsv(records));
  }
}

=== FILE: component_name.dfy ===
/** The component name resolver of vue.js:15-27. A route's `component` is an
    opaque JavaScript value; the resolver tries, in order: falsy value,
    string, truthy `name` property, and the first `/return (\w+)/` capture in
    the value's source text. Any other outcome, including a `toString` that
    throws, gives the "(dynamic)" sentinel. */
module ComponentName {
  import opened Wrappers
  import opened Strings

  /** What `component.toString()` does: yield source text or throw. */
  datatype SourceText = Text(text: string) | ToStringThrows

  /** A component reference, as the resolver can observe it. `Absent` stands
      for every falsy value other than the empty string (`undefined`, `null`,
      `false`, `0`); objects and functions are `ObjectRef`, whose `name`
      property may be missing or empty. */
  datatype ComponentRef =
    | Absent
    | StringRef(s: string)
    | ObjectRef(name: Option<string>, source: SourceText)

  const NoComponent: string := "(no component)"
  const Dynamic: string := "(dynamic)"

  /** The JavaScript `\w` class: ASCII letters, digits and underscore. */
  predicate IsWordChar(c: char) {
    ('a' <= c <= 'z') || ('A' <= c <= 'Z') || ('0' <= c <= '9') || c == '_'
  }

  const ReturnPrefix: string := "return "

  /** `/return (\w+)/` matches at position `i` of `s`. */
  predicate MatchesAt(s: string, i: int) {
    0 <= i && i + |ReturnPrefix| < |s|
    && s[i..i + |ReturnPrefix|] == ReturnPrefix
    && IsWordChar(s[i + |ReturnPrefix|])
  }

  /** `i` is the leftmost position where the pattern matches. */
  predicate LeftmostMatch(s: string, i: int) {
    MatchesAt(s, i) && forall k :: 0 <= k < i ==> !MatchesAt(s, k)
  }

  /** The greedy `\w+` run of `s` starting at `j`: the longest prefix of
      `s[j..]` made only of word characters. */
  function WordRun(s: string, j: nat): (w: string)
    requires j <= |s|
    ensures j + |w| <= |s| && s[j..j + |w|] == w
    ensures forall k :: 0 <= k < |w| ==> IsWordChar(w[k])
    ensures j + |w| == |s| || !IsWordChar(s[j + |w|])
    decreases |s| - j
  {
    if j < |s| && IsWordChar(s[j]) then [s[j]] + WordRun(s, j + 1) else ""
  }

  /** The leftmost position at or after `from` where the pattern matches. */
  function FirstMatch(s: string, from: nat): (m: Option<nat>)
    requires from <= |s|
    ensures m.Some? ==> from <= m.value && MatchesAt(s, m.value)
    ensures m.Some? ==> forall k :: from <= k < m.value ==> !MatchesAt(s, k)
    ensures m.None? ==> forall k :: from <= k ==> !MatchesAt(s, k)
    decreases |s| - from
  {
    if from + |ReturnPrefix| >= |s| then None
    else if MatchesAt(s, from) then Some(from)
    else FirstMatch(s, from + 1)
  }

  /** The word captured by the leftmost match of the pattern in `text`, or
      None when the pattern matches nowhere. */
  function ReturnCapture(text: string): (c: Option<string>)
    ensures c.None? <==> forall k :: !MatchesAt(text, k)
    ensures c.Some? ==>
      exists i :: LeftmostMatch(text, i) && c.value == WordRun(text, i + |ReturnPrefix|)
    ensures c.Some? ==> c.value != "" && forall k :: 0 <= k < |c.value| ==> IsWordChar(c.value[k])
  {
    match FirstMatch(text, 0)
    case None => None
    case Some(i) =>
      assert LeftmostMatch(text, i);
      Some(WordRun(text, i + |ReturnPrefix|))
  }

  /** The display name of a component. It is never empty. A capture is made
      of word characters, so it cannot spell a sentinel; a string component
      is shown as it is, even when it spells one. */
  function Resolve(c: ComponentRef): (r: string)
    ensures r != ""
    ensures c.Absent? || c == StringRef("") ==> r == NoComponent
    ensures c.StringRef? && c.s != "" ==> r == c.s
    ensures c.ObjectRef? && Truthy(c.name) ==> r == c.name.value
    ensures c.ObjectRef? && !Truthy(c.name) ==>
      (r == Dynamic <==> c.source.ToStringThrows? || ReturnCapture(c.source.text).None?)
    ensures c.ObjectRef? && !Truthy(c.name) && r != Dynamic ==>
      c.source.Text? &&
      exists i :: LeftmostMatch(c.source.text, i) && r == WordRun(c.source.text, i + |ReturnPrefix|)
  {
    match c
    case Absent => NoComponent
    case StringRef(s) => if s == "" then NoComponent else s
    case ObjectRef(name, source) =>
      if Truthy(name) then name.value
      else match source
        case ToStringThrows => Dynamic
        case Text(text) =>
          match ReturnCapture(text)
          case Some(w) => assert IsWordChar(w[0]) && !IsWordChar(Dynamic[0]); w
          case None => Dynamic
  }

  /** A string component is its own name. */
  lemma StringExample()
    ensures Resolve(StringRef("AsyncComp")) == "AsyncComp"
  {
  }

  /** An anonymous factory whose text returns a named value resolves to
      that name; the run of word characters stops at ';'. */
  lemma FactoryExample()
    ensures Resolve(ObjectRef(None, Text("{return Home;}"))) == "Home"
  {
    var t := "{return Home;}";
    assert !MatchesAt(t, 0) by {
      assert t[0] == '{' && ReturnPrefix[0] == 'r';
    }
    assert t[1..8] == ReturnPrefix;
    assert MatchesAt(t, 1);
    assert FirstMatch(t, 0) == Some(1);
    assert WordRun(t, 12) == "";
    assert WordRun(t, 8) == "Home";
  }
}

=== FILE: csv.dfy ===
/** The text built by `exportToCSV` (vue.js:80-87): a header row of the seven
    column names joined with ',', then one row per record in which every cell
    is wrapped in '"' with each inner '"' doubled, all rows joined with '\n'.
    A cell is the record's value under the lower-cased header name, or the
    empty text when that value is falsy, so the "Children" column reads the
    record's missing `children` key and is always empty. A reader
    of quoted fields (ParseCsv) gives back every cell, which is the
    round-trip the escaping exists for. */
module CsvExport {
  import opened Wrappers
  import opened Strings
  import opened Routes

  /** A JavaScript property value as the exporter sees it. */
  datatype JsValue = Undefined | Str(s: string) | Num(n: nat)

  const Headers: seq<string> := ["Name", "Path", "Component", "Redirect", "Alias", "Meta", "Children"]
  const Quote: char := '"'

  /** The property names of a record object, one per RouteRecord field. */
  const RecordKeys: set<string> :=
    {"name", "path", "component", "redirect", "alias", "meta", "childrenCount"}

  /** Reading property `key` of a record object: a string for each text
      field, the children count as a number, and `undefined` for any name
      the record does not have. */
  function Lookup(rec: RouteRecord, key: string): (v: JsValue)
    ensures v.Undefined? <==> key !in RecordKeys
    ensures v.Num? <==> key == "childrenCount"
  {
    if key == "name" then Str(rec.name)
    else if key == "path" then Str(rec.path)
    else if key == "component" then Str(rec.component)
    else if key == "redirect" then Str(rec.redirect)
    else if key == "alias" then Str(rec.alias)
    else if key == "meta" then Str(rec.meta)
    else if key == "childrenCount" then Num(rec.childrenCount)
    else Undefined
  }

  /** JavaScript truthiness: `undefined`, `''` and `0` are falsy. */
  predicate IsTruthy(v: JsValue) {
    match v
    case Undefined => false
    case Str(s) => s != ""
    case Num(n) => n != 0
  }

  /** `String(n)` for a non-negative integer: its decimal digits. */
  function Decimal(n: nat): (r: string)
    ensures |r| > 0
    ensures forall i :: 0 <= i < |r| ==> '0' <= r[i] <= '9'
  {
    if n < 10 then ["0123456789"[n]] else Decimal(n / 10) + ["0123456789"[n % 10]]
  }

  /** The text of a cell: a falsy value gives the empty cell, any other value
      its string form. */
  function CellText(v: JsValue): (r: string)
    ensures !IsTruthy(v) ==> r == ""
    ensures v.Str? ==> r == v.s
  {
    if !IsTruthy(v) then ""
    else match v
      case Str(s) => s
      case Num(n) => Decimal(n)
      case Undefined => ""
  }

  /** The property name each header is looked up under, once lower-cased. */
  lemma HeaderKeys()
    ensures Lower(Headers[0]) == "name" && Lower(Headers[1]) == "path"
    ensures Lower(Headers[2]) == "component" && Lower(Headers[3]) == "redirect"
    ensures Lower(Headers[4]) == "alias" && Lower(Headers[5]) == "meta"
    ensures Lower(Headers[6]) == "children"
  {
  }

  /** The unquoted cells of one record, one per header: each header is
      lower-cased and looked up on the record. The six text fields come out
      in header order; "children" is not a key of the record, so the last
      cell is empty and the children count never reaches the text. */
  function Cells(rec: RouteRecord): (cells: seq<string>)
    ensures |cells| == |Headers|
    ensures cells == [rec.name, rec.path, rec.component, rec.redirect, rec.alias, rec.meta, ""]
  {
    var cells := seq(|Headers|, i requires 0 <= i < |Headers| => CellText(Lookup(rec, Lower(Headers[i]))));
    HeaderKeys();
    cells
  }

  /** Quote escaping of a cell: every '"' doubled, every other character kept. */
  function Escape(s: string): (r: string)
    ensures |r| >= |s|
  {
    if |s| == 0 then ""
    else (if s[0] == Quote then [Quote, Quote] else [s[0]]) + Escape(s[1..])
  }

  /** A field as the exporter writes it. */
  function QuoteField(s: string): (r: string)
    ensures |r| >= |s| + 2 && r[0] == Quote && r[|r| - 1] == Quote
  {
    [Quote] + Escape(s) + [Quote]
  }

  /** Every field written in quotes, in order. */
  function QuoteAll(fields: seq<string>): (r: seq<string>)
    ensures |r| == |fields|
    ensures forall i :: 0 <= i < |fields| ==> r[i] == QuoteField(fields[i])
  {
    if |fields| == 0 then [] else [QuoteField(fields[0])] + QuoteAll(fields[1..])
  }

  /** One data row: the record's cells, each quoted, joined with ','. Read
      back on its own, it gives exactly the record's cells. */
  function RowText(rec: RouteRecord): (r: string)
    ensures ParseRow(r) == Some((Cells(rec), ""))
  {
    var r := JoinWith(QuoteAll(Cells(rec)), ",");
    ParseRowJoin(Cells(rec), "");
    assert r + "" == r;
    r
  }

  /** The data rows, one per record, in record order. */
  function RowTexts(records: seq<RouteRecord>): (rows: seq<string>)
    ensures |rows| == |records|
    ensures forall i :: 0 <= i < |records| ==> rows[i] == RowText(records[i])
  {
    if |records| == 0 then [] else [RowText(records[0])] + RowTexts(records[1..])
  }

  /** No column name holds a '"' or a line break. */
  lemma HeadersPlain()
    ensures forall k :: 0 <= k < |Headers| ==> Quote !in Headers[k] && '\n' !in Headers[k]
  {
    forall k | 0 <= k < |Headers| ensures Quote !in Headers[k] && '\n' !in Headers[k] {
    }
  }

  /** The header row: the column names joined with ',', unquoted. No
      column name holds a '"' or a line break, so the header is one line
      that no quoted field can be confused with. */
  function HeaderLine(): (r: string)
    ensures Quote !in r && '\n' !in r
  {
    HeadersPlain();
    JoinWithAvoids(Headers, ",", Quote);
    JoinWithAvoids(Headers, ",", '\n');
    JoinWith(Headers, ",")
  }

  /** The exported text: the header row, then one row per record, in order,
      each introduced by a line break. */
  function ToCsv(records: seq<RouteRecord>): (r: string)
    ensures r == HeaderLine() + Lines(RowTexts(records))
    ensures |records| == 0 ==> r == HeaderLine()
  {
    JoinAfterHeader(HeaderLine(), RowTexts(records));
    JoinWith([HeaderLine()] + RowTexts(records), "\n")
  }

  // ----- Reading the text back -----

  /** Reads the body of a quoted field that starts just after its opening
      '"': a doubled '"' stands for one '"', a single '"' closes the field.
      Gives the field and the text after the closing quote. */
  function ReadQuoted(s: string): (r: Option<(string, string)>)
    ensures r.Some? ==> |r.value.1| < |s|
    decreases |s|
  {
    if |s| == 0 then None
    else if s[0] == Quote then
      if |s| >= 2 && s[1] == Quote then
        match ReadQuoted(s[2..])
        case None => None
        case Some((body, rest)) => Some(([Quote] + body, rest))
      else Some(("", s[1..]))
    else
      match ReadQuoted(s[1..])
      case None => None
      case Some((body, rest)) => Some(([s[0]] + body, rest))
  }

  function ParseField(s: string): (r: Option<(string, string)>)
    ensures r.Some? ==> |r.value.1| < |s|
  {
    if |s| > 0 && s[0] == Quote then ReadQuoted(s[1..]) else None
  }

  /** Reads quoted fields separated by ',' up to the end of the row. */
  function ParseRow(s: string): (r: Option<(seq<string>, string)>)
    ensures r.Some? ==> |r.value.1| < |s|
    decreases |s|
  {
    match ParseField(s)
    case None => None
    case Some((field, rest)) =>
      if |rest| > 0 && rest[0] == ',' then
        match ParseRow(rest[1..])
        case None => None
        case Some((fields, rest')) => Some(([field] + fields, rest'))
      else Some(([field], rest))
  }

  /** Reads rows, each introduced by '\n', to the end of the text. */
  function ParseRows(s: string): (r: Option<seq<seq<string>>>)
    decreases |s|
  {
    if |s| == 0 then Some([])
    else if s[0] != '\n' then None
    else
      match ParseRow(s[1..])
      case None => None
      case Some((row, rest)) =>
        match ParseRows(rest)
        case None => None
        case Some(rows) => Some([row] + rows)
  }

  /** Reads an exported text: the fixed header row, then the data rows. */
  function ParseCsv(text: string): Option<seq<seq<string>>> {
    if HeaderLine() <= text then ParseRows(text[|HeaderLine()|..]) else None
  }

  // ----- Properties -----

  /** Un-doubling the escaped text recovers the field, when the closing
      quote is not followed by another '"'. */
  lemma ReadQuotedDoubled(tail: string, body: string, rest: string)
    requires ReadQuoted(tail) == Some((body, rest))
    ensures ReadQuoted([Quote, Quote] + tail) == Some(([Quote] + body, rest))
  {
    var s := [Quote, Quote] + tail;
    assert s[0] == Quote && s[1] == Quote && s[2..] == tail;
  }

  lemma ReadQuotedPlain(c: char, tail: string, body: string, rest: string)
    requires c != Quote
    requires ReadQuoted(tail) == Some((body, rest))
    ensures ReadQuoted([c] + tail) == Some(([c] + body, rest))
  {
    var s := [c] + tail;
    assert s[0] == c && s[1..] == tail;
  }

  lemma EscapeCons(x: string)
    requires |x| > 0
    ensures Escape(x) == (if x[0] == Quote then [Quote, Quote] else [x[0]]) + Escape(x[1..])
  {
  }

  /** A field with no '"' is written as it is. */
  lemma {:induction false} EscapeNoQuote(s: string)
    requires Quote !in s
    ensures Escape(s) == s
  {
    if |s| > 0 {
      assert s[0] != Quote;
      assert Quote !in s[1..] by {
        forall i | 0 <= i < |s[1..]| ensures s[1..][i] != Quote {
          assert s[1..][i] == s[i + 1];
        }
      }
      EscapeNoQuote(s[1..]);
      EscapeCons(s);
      assert s == [s[0]] + s[1..];
    }
  }

  /** Escaping adds exactly one character per '"' in the field. */
  lemma {:induction false} EscapeLength(s: string)
    ensures |Escape(s)| == |s| + multiset(s)[Quote]
  {
    if |s| > 0 {
      EscapeLength(s[1..]);
      EscapeCons(s);
      assert s == [s[0]] + s[1..];
      assert multiset(s) == multiset([s[0]]) + multiset(s[1..]);
    }
  }

  lemma EscapeFront(x: string, rest: string)
    requires |x| > 0
    ensures Escape(x) + [Quote] + rest
      == (if x[0] == Quote then [Quote, Quote] else [x[0]]) + (Escape(x[1..]) + [Quote] + rest)
  {
    var head := if x[0] == Quote then [Quote, Quote] else [x[0]];
    var e := Escape(x[1..]);
    EscapeCons(x);
    SeqAssoc(head, e, [Quote]);
    SeqAssoc(head, e + [Quote], rest);
  }

  lemma SeqAssoc(a: string, b: string, c: string)
    ensures a + b + c == a + (b + c)
  {
  }

  lemma {:induction false} ReadQuotedEscape(x: string, rest: string)
    requires |rest| == 0 || rest[0] != Quote
    ensures ReadQuoted(Escape(x) + [Quote] + rest) == Some((x, rest))
  {
    if |x| == 0 {
      calc {
        ReadQuoted(Escape(x) + [Quote] + rest);
      == { assert Escape(x) + [Quote] + rest == [Quote] + rest; }
        ReadQuoted([Quote] + rest);
      == { assert ([Quote] + rest)[1..] == rest; }
        Some((x, rest));
      }
    } else {
      var tail := Escape(x[1..]) + [Quote] + rest;
      ReadQuotedEscape(x[1..], rest);
      if x[0] == Quote {
        calc {
          ReadQuoted(Escape(x) + [Quote] + rest);
        == { EscapeFront(x, rest); }
          ReadQuoted([Quote, Quote] + tail);
        == { ReadQuotedDoubled(tail, x[1..], rest); }
          Some(([Quote] + x[1..], rest));
        == { assert [Quote] + x[1..] == x; }
          Some((x, rest));
        }
      } else {
        calc {
          ReadQuoted(Escape(x) + [Quote] + rest);
        == { EscapeFront(x, rest); }
          ReadQuoted([x[0]] + tail);
        == { ReadQuotedPlain(x[0], tail, x[1..], rest); }
          Some(([x[0]] + x[1..], rest));
        == { assert [x[0]] + x[1..] == x; }
          Some((x, rest));
        }
      }
    }
  }

  lemma ParseFieldQuote(x: string, rest: string)
    requires |rest| == 0 || rest[0] != Quote
    ensures ParseField(QuoteField(x) + rest) == Some((x, rest))
  {
    ReadQuotedEscape(x, rest);
    assert (QuoteField(x) + rest)[1..] == Escape(x) + [Quote] + rest;
  }

  lemma ParseRowLast(field: string, rest: string)
    requires |rest| == 0 || (rest[0] != ',' && rest[0] != Quote)
    ensures ParseRow(QuoteField(field) + rest) == Some(([field], rest))
  {
    ParseFieldQuote(field, rest);
  }

  lemma ParseRowMore(field: string, tail: string, fields: seq<string>, rest: string)
    requires ParseRow(tail) == Some((fields, rest))
    ensures ParseRow(QuoteField(field) + ("," + tail)) == Some(([field] + fields, rest))
  {
    ParseFieldQuote(field, "," + tail);
    assert ("," + tail)[0] == ',' && ("," + tail)[1..] == tail;
  }

  /** A row of quoted fields reads back as those fields, whatever follows
      the row as long as it does not continue it. */
  lemma {:induction false} ParseRowJoin(fields: seq<string>, rest: string)
    requires |fields| > 0
    requires |rest| == 0 || (rest[0] != ',' && rest[0] != Quote)
    ensures ParseRow(JoinWith(QuoteAll(fields), ",") + rest) == Some((fields, rest))
  {
    var q := QuoteAll(fields);
    if |fields| == 1 {
      calc {
        ParseRow(JoinWith(q, ",") + rest);
      == { assert JoinWith(q, ",") == QuoteField(fields[0]); }
        ParseRow(QuoteField(fields[0]) + rest);
      == { ParseRowLast(fields[0], rest); }
        Some(([fields[0]], rest));
      == { assert [fields[0]] == fields; }
        Some((fields, rest));
      }
    } else {
      var tail := JoinWith(q[1..], ",") + rest;
      calc {
        ParseRow(JoinWith(q, ",") + rest);
      == { assert JoinWith(q, ",") + rest == QuoteField(fields[0]) + ("," + tail); }
        ParseRow(QuoteField(fields[0]) + ("," + tail));
      == { assert q[1..] == QuoteAll(fields[1..]);
           ParseRowJoin(fields[1..], rest);
           ParseRowMore(fields[0], tail, fields[1..], rest); }
        Some(([fields[0]] + fields[1..], rest));
      == { assert [fields[0]] + fields[1..] == fields; }
        Some((fields, rest));
      }
    }
  }

  /** The rows after the header, each prefixed by '\n'. */
  function Lines(rows: seq<string>): string {
    if |rows| == 0 then "" else "\n" + rows[0] + Lines(rows[1..])
  }

  lemma {:induction false} JoinAfterHeader(head: string, rows: seq<string>)
    ensures JoinWith([head] + rows, "\n") == head + Lines(rows)
    decreases |rows|
  {
    if |rows| == 0 {
      assert [head] + rows == [head];
    } else {
      calc {
        JoinWith([head] + rows, "\n");
      == { JoinWithCons(head, rows, "\n"); }
        head + "\n" + JoinWith(rows, "\n");
      == { assert [rows[0]] + rows[1..] == rows; }
        head + "\n" + JoinWith([rows[0]] + rows[1..], "\n");
      == { JoinAfterHeader(rows[0], rows[1..]); }
        head + "\n" + (rows[0] + Lines(rows[1..]));
      == { assert Lines(rows) == "\n" + rows[0] + Lines(rows[1..]); }
        head + Lines(rows);
      }
    }
  }

  function AllCells(records: seq<RouteRecord>): (table: seq<seq<string>>)
    ensures |table| == |records|
    ensures forall i :: 0 <= i < |records| ==> table[i] == Cells(records[i])
  {
    if |records| == 0 then [] else [Cells(records[0])] + AllCells(records[1..])
  }

  lemma ParseRowsCons(s: string, row: seq<string>, rest: string, rows: seq<seq<string>>)
    requires ParseRow(s) == Some((row, rest))
    requires ParseRows(rest) == Some(rows)
    ensures ParseRows("\n" + s) == Some([row] + rows)
  {
    assert ("\n" + s)[0] == '\n' && ("\n" + s)[1..] == s;
  }

  lemma {:induction false} ParseRowsLines(records: seq<RouteRecord>)
    ensures ParseRows(Lines(RowTexts(records))) == Some(AllCells(records))
  {
    if |records| > 0 {
      var rows := RowTexts(records);
      var row := RowText(records[0]);
      var after := Lines(RowTexts(records[1..]));
      assert rows == [row] + RowTexts(records[1..]);
      assert Lines(rows) == "\n" + (row + after) by {
        assert rows[0] == row && rows[1..] == RowTexts(records[1..]);
      }
      ParseRowsLines(records[1..]);
      assert |after| == 0 || after[0] == '\n';
      ParseRowJoin(Cells(records[0]), after);
      ParseRowsCons(row + after, Cells(records[0]), after, AllCells(records[1..]));
      assert AllCells(records) == [Cells(records[0])] + AllCells(records[1..]);
    }
  }

  /** Reading the exported text back gives, after the header, exactly one
      row per record with that record's cells, in order: escaping loses
      nothing. */
  lemma ExportRoundTrip(records: seq<RouteRecord>)
    ensures ParseCsv(ToCsv(records)) == Some(AllCells(records))
  {
    JoinAfterHeader(HeaderLine(), RowTexts(records));
    ParseRowsLines(records);
    var text := ToCsv(records);
    assert text == HeaderLine() + Lines(RowTexts(records));
    assert text[|HeaderLine()|..] == Lines(RowTexts(records));
  }
}

=== FILE: paths.dfy ===
/** The path join of the route flattener (vue.js:55-58). The parent path
    and the route's own path are the two candidate segments; empty or absent
    ones are dropped, the rest are joined with '/', and every run of '/' is
    collapsed into one. No leading '/' is ever added. */
module Paths {
  import opened Wrappers
  import opened Strings

  /** Positions `i` and `i + 1` both hold '/'. */
  predicate SlashPairAt(s: string, i: nat)
    requires i + 1 < |s|
  {
    s[i] == '/' && s[i + 1] == '/'
  }

  /** No two neighbouring characters are both '/'. */
  ghost predicate NoDoubleSlash(s: string) {
    forall i: nat :: i + 1 < |s| ==> !SlashPairAt(s, i)
  }

  /** The characters of `s` other than '/', in order. */
  function StripSlashes(s: string): string {
    if |s| == 0 then ""
    else if s[0] == '/' then StripSlashes(s[1..])
    else [s[0]] + StripSlashes(s[1..])
  }

  lemma {:induction false} StripSlashesAppend(a: string, b: string)
    ensures StripSlashes(a + b) == StripSlashes(a) + StripSlashes(b)
  {
    if |a| > 0 {
      assert (a + b)[1..] == a[1..] + b;
      StripSlashesAppend(a[1..], b);
    } else {
      assert a + b == b;
    }
  }

  lemma NoDoubleSlashTail(s: string)
    requires NoDoubleSlash(s) && |s| > 0
    ensures NoDoubleSlash(s[1..])
  {
    forall i: nat | i + 1 < |s[1..]|
      ensures !SlashPairAt(s[1..], i)
    {
      assert !SlashPairAt(s, i + 1);
    }
  }

  /** The string is non-empty and does not begin with '/': it begins with a
      segment. */
  predicate StartsPart(s: string) {
    |s| > 0 && s[0] != '/'
  }

  predicate LeadSlash(s: string) {
    |s| > 0 && s[0] == '/'
  }

  predicate TrailSlash(s: string) {
    |s| > 0 && s[|s| - 1] == '/'
  }

  /** The segments of a path: its maximal runs of characters other than '/',
      in order, however many '/' stand between them. Every segment is
      non-empty and holds no '/' (`PartsAreSegments`). */
  function Parts(s: string): (ps: seq<string>)
    ensures StartsPart(s) ==> |ps| > 0 && |ps[0]| > 0 && ps[0][0] == s[0]
  {
    if |s| == 0 then []
    else if s[0] == '/' then Parts(s[1..])
    else
      var rest := Parts(s[1..]);
      if StartsPart(s[1..]) then [[s[0]] + rest[0]] + rest[1..]
      else [[s[0]]] + rest
  }

  /** Every segment is non-empty and holds no '/'. */
  lemma {:induction false} PartsAreSegments(s: string)
    ensures forall i :: 0 <= i < |Parts(s)| ==> Parts(s)[i] != "" && '/' !in Parts(s)[i]
  {
    if |s| > 0 {
      PartsAreSegments(s[1..]);
      if s[0] != '/' {
        var rest := Parts(s[1..]);
        if StartsPart(s[1..]) {
          assert Parts(s) == [[s[0]] + rest[0]] + rest[1..];
          assert '/' !in [s[0]] + rest[0];
          forall i | 1 <= i < |Parts(s)| ensures Parts(s)[i] == rest[i] {
          }
        } else {
          assert Parts(s) == [[s[0]]] + rest;
        }
      }
    }
  }

  /** The segments of `[c] + t`: a '/' adds nothing, any other character
      starts a new segment or extends the one `t` begins with. */
  lemma PartsCons(c: char, t: string)
    ensures Parts([c] + t)
      == if c == '/' then Parts(t)
         else if StartsPart(t) then [[c] + Parts(t)[0]] + Parts(t)[1..]
         else [[c]] + Parts(t)
  {
    assert ([c] + t)[1..] == t;
  }

  /** Gluing a character onto the first of several segments commutes with
      appending more segments after them. */
  lemma GlueAppend(c: char, p: seq<string>, q: seq<string>)
    requires |p| > 0
    ensures [[c] + (p + q)[0]] + (p + q)[1..] == ([[c] + p[0]] + p[1..]) + q
  {
    assert (p + q)[0] == p[0];
    assert (p + q)[1..] == p[1..] + q;
  }

  /** The step of `PartsSlashJoin` for a leading non-'/' that extends the
      first segment of the rest. */
  lemma SlashJoinGlue(c: char, rest: string, b: string)
    requires c != '/' && StartsPart(rest)
    requires Parts(rest + "/" + b) == Parts(rest) + Parts(b)
    ensures Parts([c] + (rest + "/" + b)) == Parts([c] + rest) + Parts(b)
  {
    var t := rest + "/" + b;
    assert t[0] == rest[0];
    PartsCons(c, t);
    PartsCons(c, rest);
    GlueAppend(c, Parts(rest), Parts(b));
  }

  /** The step of `PartsSlashJoin` for a leading non-'/' that forms a
      segment of its own. */
  lemma SlashJoinSingle(c: char, rest: string, b: string)
    requires c != '/' && !StartsPart(rest)
    requires Parts(rest + "/" + b) == Parts(rest) + Parts(b)
    ensures Parts([c] + (rest + "/" + b)) == Parts([c] + rest) + Parts(b)
  {
    var t := rest + "/" + b;
    assert t[0] == '/' by {
      if |rest| > 0 {
        assert t[0] == rest[0];
      }
    }
    PartsCons(c, t);
    PartsCons(c, rest);
    assert [[c]] + (Parts(rest) + Parts(b)) == ([[c]] + Parts(rest)) + Parts(b);
  }

  /** Putting a '/' between two strings puts a segment boundary there. */
  lemma {:induction false} PartsSlashJoin(a: string, b: string)
    ensures Parts(a + "/" + b) == Parts(a) + Parts(b)
  {
    if |a| == 0 {
      assert a + "/" + b == ['/'] + b;
      PartsCons('/', b);
    } else {
      var c, rest := a[0], a[1..];
      assert a + "/" + b == [c] + (rest + "/" + b);
      assert a == [c] + rest;
      PartsSlashJoin(rest, b);
      if c == '/' {
        PartsCons(c, rest + "/" + b);
        PartsCons(c, rest);
      } else if StartsPart(rest) {
        SlashJoinGlue(c, rest, b);
      } else {
        SlashJoinSingle(c, rest, b);
      }
    }
  }

  /** What `Collapse` promises of `t` and its collapse `rest` carries over
      when one character that does not start a "//" is put in front of both. */
  lemma CollapseStep(c: char, t: string, rest: string)
    requires |t| > 0 && |rest| > 0 && |rest| <= |t|
    requires rest[0] == t[0] && rest[|rest| - 1] == t[|t| - 1]
    requires NoDoubleSlash(rest) && StripSlashes(rest) == StripSlashes(t)
    requires NoDoubleSlash(t) ==> rest == t
    requires !(c == '/' && t[0] == '/')
    ensures NoDoubleSlash([c] + rest)
    ensures StripSlashes([c] + rest) == StripSlashes([c] + t)
    ensures ([c] + rest)[0] == c && ([c] + rest)[|rest|] == ([c] + t)[|t|]
    ensures NoDoubleSlash([c] + t) ==> [c] + rest == [c] + t
  {
    var r := [c] + rest;
    forall i: nat | i + 1 < |r|
      ensures !SlashPairAt(r, i)
    {
      if i > 0 {
        assert !SlashPairAt(rest, i - 1);
      }
    }
    StripSlashesAppend([c], rest);
    StripSlashesAppend([c], t);
    if NoDoubleSlash([c] + t) {
      NoDoubleSlashTail([c] + t);
      assert ([c] + t)[1..] == t;
    }
  }

  /** Taking one non-'/' character off the front of a string: whether the
      rest still starts a segment shows in the length of the first segment,
      and the rest's segments can be read back. */
  lemma PartsUncons(c: char, t: string)
    requires c != '/'
    ensures |Parts([c] + t)| > 0
    ensures StartsPart(t) <==> |Parts([c] + t)[0]| > 1
    ensures Parts(t)
      == if StartsPart(t) then [Parts([c] + t)[0][1..]] + Parts([c] + t)[1..]
         else Parts([c] + t)[1..]
  {
    PartsCons(c, t);
    var pt := Parts(t);
    var pa := Parts([c] + t);
    if StartsPart(t) {
      assert pa == [[c] + pt[0]] + pt[1..];
      assert pa[0][1..] == pt[0];
      assert pa[1..] == pt[1..];
      assert pt == [pt[0]] + pt[1..];
    } else {
      assert pa == [[c]] + pt;
      assert pa[1..] == pt;
    }
  }

  /** Slash collapsing: every maximal run of '/' becomes one '/'.
      Only slashes are removed, the first and last characters survive (so a
      leading or trailing '/' is kept and none is added), and a string that
      has no "//" is left as it is. The segments are kept as they are
      (`CollapseKeepsParts`), which together with the rest fixes the result
      (`CollapseUnique`). */
  function Collapse(s: string): (r: string)
    ensures NoDoubleSlash(r)
    ensures StripSlashes(r) == StripSlashes(s)
    ensures |r| <= |s|
    ensures |s| > 0 ==> |r| > 0 && r[0] == s[0] && r[|r| - 1] == s[|s| - 1]
    ensures NoDoubleSlash(s) ==> r == s
  {
    if |s| <= 1 then s
    else if s[0] == '/' && s[1] == '/' then
      assert SlashPairAt(s, 0);
      Collapse(s[1..])
    else
      var rest := Collapse(s[1..]);
      CollapseStep(s[0], s[1..], rest);
      assert s == [s[0]] + s[1..];
      [s[0]] + rest
  }

  /** Collapsing keeps every segment, in order: each run of '/' still
      separates the same two segments. */
  lemma {:induction false} CollapseKeepsParts(s: string)
    ensures Parts(Collapse(s)) == Parts(s)
  {
    if |s| <= 1 {
    } else if s[0] == '/' && s[1] == '/' {
      CollapseKeepsParts(s[1..]);
      assert Parts(s) == Parts(s[1..]);
    } else {
      var t := s[1..];
      var rest := Collapse(t);
      CollapseKeepsParts(t);
      assert s == [s[0]] + t;
      assert Collapse(s) == [s[0]] + rest;
      PartsCons(s[0], rest);
      PartsCons(s[0], t);
      assert StartsPart(rest) == StartsPart(t);
    }
  }

  /** A string of slashes only, with no "//", is a single '/'. */
  lemma SlashesOnly(b: string)
    requires NoDoubleSlash(b) && Parts(b) == [] && |b| > 0
    ensures b == "/"
  {
    assert b[0] == '/';
    assert |b| > 1 ==> SlashPairAt(b, 0);
  }

  /** A path with no "//" is fixed by its segments and by whether it begins
      and ends with '/'. */
  lemma {:induction false} CanonicalUnique(a: string, b: string)
    requires NoDoubleSlash(a) && NoDoubleSlash(b)
    requires Parts(a) == Parts(b)
    requires LeadSlash(a) == LeadSlash(b) && TrailSlash(a) == TrailSlash(b)
    ensures a == b
    decreases |a| + |b|
  {
    if |a| == 0 || |b| == 0 {
      if |a| > 0 {
        SlashesOnly(a);
      } else if |b| > 0 {
        SlashesOnly(b);
      }
    } else if a[0] == '/' {
      if |a| == 1 || |b| == 1 {
        if |a| == 1 {
          SlashesOnly(b);
        } else {
          SlashesOnly(a);
        }
      } else {
        NoDoubleSlashTail(a);
        NoDoubleSlashTail(b);
        assert !SlashPairAt(a, 0) && !SlashPairAt(b, 0);
        assert a[1..][0] == a[1] && b[1..][0] == b[1];
        assert a[1..][|a[1..]| - 1] == a[|a| - 1] && b[1..][|b[1..]| - 1] == b[|b| - 1];
        CanonicalUnique(a[1..], b[1..]);
        assert a == [a[0]] + a[1..] && b == [b[0]] + b[1..];
      }
    } else {
      var c := a[0];
      var ta, tb := a[1..], b[1..];
      assert c == b[0];
      assert a == [c] + ta && b == [c] + tb;
      PartsUncons(c, ta);
      PartsUncons(c, tb);
      if |ta| == 0 && |tb| == 0 {
      } else if |ta| == 0 {
        SlashesOnly(tb) by {
          NoDoubleSlashTail(b);
        }
      } else if |tb| == 0 {
        SlashesOnly(ta) by {
          NoDoubleSlashTail(a);
        }
      } else {
        NoDoubleSlashTail(a);
        NoDoubleSlashTail(b);
        assert ta[|ta| - 1] == a[|a| - 1] && tb[|tb| - 1] == b[|b| - 1];
        CanonicalUnique(ta, tb);
      }
    }
  }

  /** The collapse is the only string with no "//" that has the same
      segments as `s` and begins and ends with '/' exactly when `s` does. */
  lemma CollapseUnique(s: string, r: string)
    requires NoDoubleSlash(r) && Parts(r) == Parts(s)
    requires LeadSlash(r) == LeadSlash(s) && TrailSlash(r) == TrailSlash(s)
    ensures r == Collapse(s)
  {
    CollapseKeepsParts(s);
    CanonicalUnique(r, Collapse(s));
  }

  /** One step of the collapse at a "//": the first '/' goes. */
  lemma CollapseDrop(s: string)
    requires |s| >= 2 && s[0] == '/' && s[1] == '/'
    ensures Collapse(s) == Collapse(s[1..])
  {
  }

  /** One step of the collapse anywhere else: the first character stays. */
  lemma CollapseKeep(s: string)
    requires |s| >= 2 && !(s[0] == '/' && s[1] == '/')
    ensures Collapse(s) == [s[0]] + Collapse(s[1..])
  {
  }

  /** The step of `CollapseAbsorbs` at a leading "//". */
  lemma AbsorbsDrop(x: string, y: string)
    requires |x| >= 2 && x[0] == '/' && x[1] == '/'
    requires Collapse(Collapse(x[1..]) + y) == Collapse(x[1..] + y)
    ensures Collapse(Collapse(x) + y) == Collapse(x + y)
  {
    TailAppend(x, y);
    CollapseDrop(x);
    CollapseDrop(x + y);
  }

  /** The step of `CollapseAbsorbs` when the first character stays. */
  lemma AbsorbsKeep(x: string, y: string)
    requires |x| >= 2 && !(x[0] == '/' && x[1] == '/')
    requires Collapse(Collapse(x[1..]) + y) == Collapse(x[1..] + y)
    ensures Collapse(Collapse(x) + y) == Collapse(x + y)
  {
    var c := Collapse(x[1..]);
    var w := [x[0]] + (c + y);
    ConsAppend(x[0], c, y);
    TailAppend(x, y);
    calc {
      Collapse(Collapse(x) + y);
    == { CollapseKeep(x); }
      Collapse(w);
    == { CollapseKeep(w); }
      [x[0]] + Collapse(c + y);
    == { CollapseKeep(x + y); }
      Collapse(x + y);
    }
  }

  /** Collapsing a prefix first changes nothing: the collapse of `x + y`
      only depends on `x` through its collapse. */
  lemma {:induction false} CollapseAbsorbs(x: string, y: string)
    ensures Collapse(Collapse(x) + y) == Collapse(x + y)
  {
    if |x| <= 1 {
      assert Collapse(x) == x;
    } else {
      CollapseAbsorbs(x[1..], y);
      if x[0] == '/' && x[1] == '/' {
        AbsorbsDrop(x, y);
      } else {
        AbsorbsKeep(x, y);
      }
    }
  }

  /** Collapsing is idempotent. */
  lemma CollapseIdempotent(s: string)
    ensures Collapse(Collapse(s)) == Collapse(s)
  {
  }

  /** The path pieces that survive the truthiness filter: the parent path unless it
      is empty, and the route's own path unless it is absent or empty. */
  function Segments(parentPath: string, own: Option<string>): (segs: seq<string>)
    ensures forall i :: 0 <= i < |segs| ==> segs[i] != ""
    ensures forall i :: 0 <= i < |segs| ==> segs[i] == parentPath || (own.Some? && segs[i] == own.value)
    ensures |segs| == 0 <==> parentPath == "" && !Truthy(own)
    ensures |segs| == 2 <==> parentPath != "" && Truthy(own)
    ensures parentPath != "" ==> segs[0] == parentPath
    ensures Truthy(own) ==> segs[|segs| - 1] == own.value
  {
    (if parentPath != "" then [parentPath] else [])
      + (if Truthy(own) then [own.value] else [])
  }

  lemma JoinPair(a: string, b: string, sep: string)
    ensures JoinWith([a, b], sep) == a + sep + b
  {
    assert [a, b][1..] == [b];
  }

  /** Both segments kept: the joined string is the parent, '/', and the
      own path. */
  lemma JoinedBoth(parentPath: string, own: string)
    requires parentPath != "" && own != ""
    ensures var joined := parentPath + "/" + own;
      && StripSlashes(joined) == StripSlashes(parentPath) + StripSlashes(own)
      && Parts(joined) == Parts(parentPath) + Parts(own)
      && joined[0] == parentPath[0]
      && joined[|joined| - 1] == own[|own| - 1]
  {
    JoinedBothStrip(parentPath, own);
    PartsSlashJoin(parentPath, own);
  }

  lemma JoinedBothStrip(parentPath: string, own: string)
    ensures StripSlashes(parentPath + "/" + own) == StripSlashes(parentPath) + StripSlashes(own)
  {
    StripSlashesAppend(parentPath, "/");
    StripSlashesAppend(parentPath + "/", own);
    assert StripSlashes("/") == "" by {
      assert "/"[1..] == "";
    }
  }

  /** The kept segments joined with '/', before any collapsing: its
      segments, non-'/' characters and end characters come from the parent
      and the own path, in that order. */
  lemma JoinedSegments(parentPath: string, own: Option<string>)
    ensures var joined := JoinWith(Segments(parentPath, own), "/");
      && (joined == "" <==> parentPath == "" && !Truthy(own))
      && StripSlashes(joined) == StripSlashes(parentPath) + StripSlashes(own.GetOr(""))
      && Parts(joined) == Parts(parentPath) + Parts(own.GetOr(""))
      && (LeadSlash(joined)
        <==> if parentPath != "" then LeadSlash(parentPath) else Truthy(own) && LeadSlash(own.value))
      && (TrailSlash(joined)
        <==> if Truthy(own) then TrailSlash(own.value) else TrailSlash(parentPath))
  {
    var segs := Segments(parentPath, own);
    if parentPath != "" && Truthy(own) {
      assert segs == [parentPath, own.value];
      JoinPair(parentPath, own.value, "/");
      JoinedBoth(parentPath, own.value);
    } else if parentPath != "" {
      assert segs == [parentPath];
      assert own.GetOr("") == "";
    } else if Truthy(own) {
      assert segs == [own.value];
      assert parentPath + own.value == own.value;
    } else {
      assert segs == [];
      assert own.GetOr("") == "";
    }
  }

  /** The resolved path of a route whose parent resolved to `parentPath`.
      Its segments and end slashes are stated by `JoinPathSegments`, which
      fixes it (`JoinPathUnique`). */
  function JoinPath(parentPath: string, own: Option<string>): (r: string)
    ensures NoDoubleSlash(r)
    ensures StripSlashes(r) == StripSlashes(parentPath) + StripSlashes(own.GetOr(""))
    ensures r == "" <==> parentPath == "" && !Truthy(own)
  {
    var joined := JoinWith(Segments(parentPath, own), "/");
    JoinedSegments(parentPath, own);
    Collapse(joined)
  }

  /** The resolved path has the parent's segments followed by the route's
      own, each pair separated by a single '/'. It begins with '/' only if
      the first kept segment does (none is added) and ends with '/' only if
      the last kept segment does. */
  lemma JoinPathSegments(parentPath: string, own: Option<string>)
    ensures var r := JoinPath(parentPath, own);
      && Parts(r) == Parts(parentPath) + Parts(own.GetOr(""))
      && (LeadSlash(r)
        <==> if parentPath != "" then LeadSlash(parentPath) else Truthy(own) && LeadSlash(own.value))
      && (TrailSlash(r)
        <==> if Truthy(own) then TrailSlash(own.value) else TrailSlash(parentPath))
  {
    var joined := JoinWith(Segments(parentPath, own), "/");
    JoinedSegments(parentPath, own);
    CollapseKeepsParts(joined);
  }

  /** The resolved path is the only string with no "//" whose segments are
      the parent's followed by the route's own, and which begins and ends
      with '/' exactly as the contract of `JoinPath` says. */
  lemma JoinPathUnique(parentPath: string, own: Option<string>, r: string)
    requires NoDoubleSlash(r)
    requires Parts(r) == Parts(parentPath) + Parts(own.GetOr(""))
    requires LeadSlash(r)
      <==> if parentPath != "" then LeadSlash(parentPath) else Truthy(own) && LeadSlash(own.value)
    requires TrailSlash(r)
      <==> if Truthy(own) then TrailSlash(own.value) else TrailSlash(parentPath)
    ensures r == JoinPath(parentPath, own)
  {
    JoinPathSegments(parentPath, own);
    CanonicalUnique(r, JoinPath(parentPath, own));
  }

  /** A route with an empty or absent own path resolves to exactly its
      parent's resolved path. */
  lemma EmptySegmentKeepsParent(parentPath: string, own: Option<string>)
    requires NoDoubleSlash(parentPath)
    requires !Truthy(own)
    ensures JoinPath(parentPath, own) == parentPath
  {
  }

  /** At top level the own segment is only collapsed: a leading '/' is
      neither added nor removed. */
  lemma TopLevelOnlyCollapses(own: Option<string>)
    ensures JoinPath("", own) == Collapse(own.GetOr(""))
    ensures Truthy(own) ==> (JoinPath("", own)[0] == '/' <==> own.value[0] == '/')
  {
  }

  /** Both segments present: they are joined by one '/' and collapsed. */
  lemma BothSegmentsJoined(parentPath: string, own: string)
    requires parentPath != "" && own != ""
    ensures JoinPath(parentPath, Some(own)) == Collapse(parentPath + "/" + own)
  {
    assert Segments(parentPath, Some(own)) == [parentPath, own];
    JoinPair(parentPath, own, "/");
  }

  /** The canonical path of a chain of segments: the non-empty ones joined
      with '/' and collapsed. */
  function Present(segs: seq<Option<string>>): (kept: seq<string>)
    ensures |kept| <= |segs|
    ensures forall i :: 0 <= i < |kept| ==> kept[i] != ""
  {
    if |segs| == 0 then []
    else Present(segs[..|segs| - 1]) + (if Truthy(segs[|segs| - 1]) then [segs[|segs| - 1].value] else [])
  }

  function ChainPath(segs: seq<Option<string>>): string {
    Collapse(JoinWith(Present(segs), "/"))
  }

  lemma {:induction false} JoinWithSnoc(parts: seq<string>, last: string, sep: string)
    requires |parts| > 0
    ensures JoinWith(parts + [last], sep) == JoinWith(parts, sep) + (sep + last)
  {
    if |parts| == 1 {
      assert (parts + [last])[1..] == [last];
    } else {
      assert (parts + [last])[1..] == parts[1..] + [last];
      JoinWithSnoc(parts[1..], last, sep);
      assert parts[0] + sep + (JoinWith(parts[1..], sep) + (sep + last))
        == (parts[0] + sep + JoinWith(parts[1..], sep)) + (sep + last);
    }
  }

  lemma {:induction false} JoinWithNonEmpty(parts: seq<string>, sep: string)
    requires forall i :: 0 <= i < |parts| ==> parts[i] != ""
    ensures JoinWith(parts, sep) == "" <==> |parts| == 0
  {
    if |parts| > 1 {
      JoinWithNonEmpty(parts[1..], sep);
    }
  }

  /** Path joining is associative under nesting: joining a segment onto a
      parent's resolved path gives the canonical path of the whole chain. */
  lemma PresentSnoc(segs: seq<Option<string>>, own: Option<string>)
    ensures Present(segs + [own]) == Present(segs) + (if Truthy(own) then [own.value] else [])
  {
    assert (segs + [own])[..|segs|] == segs;
  }

  lemma JoinPathExtendsChain(segs: seq<Option<string>>, own: Option<string>)
    ensures JoinPath(ChainPath(segs), own) == ChainPath(segs + [own])
  {
    var kept := Present(segs);
    var j := JoinWith(kept, "/");
    var p := Collapse(j);
    PresentSnoc(segs, own);
    JoinWithNonEmpty(kept, "/");
    if |kept| == 0 {
      assert p == "";
      if Truthy(own) {
        assert Present(segs + [own]) == [own.value];
        assert Segments(p, own) == [own.value];
      } else {
        assert Present(segs + [own]) == [];
        assert Segments(p, own) == [];
      }
    } else if Truthy(own) {
      ExtendBoth(kept, own.value);
    } else {
      assert Present(segs + [own]) == kept;
      EmptySegmentKeepsParent(p, own);
    }
  }

  lemma ExtendBoth(kept: seq<string>, own: string)
    requires |kept| > 0 && own != ""
    requires forall i :: 0 <= i < |kept| ==> kept[i] != ""
    ensures JoinPath(Collapse(JoinWith(kept, "/")), Some(own)) == Collapse(JoinWith(kept + [own], "/"))
  {
    var j := JoinWith(kept, "/");
    var p := Collapse(j);
    JoinWithNonEmpty(kept, "/");
    calc {
      JoinPath(p, Some(own));
    == { BothSegmentsJoined(p, own); }
      Collapse(p + "/" + own);
    == { assert p + "/" + own == p + ("/" + own); }
      Collapse(p + ("/" + own));
    == { CollapseAbsorbs(j, "/" + own); }
      Collapse(j + ("/" + own));
    == { JoinWithSnoc(kept, own, "/"); }
      Collapse(JoinWith(kept + [own], "/"));
    }
  }

  /** Repeated separators at the seam collapse: "a/" under "/b" is "a/b". */
  lemma SeamCollapses()
    ensures JoinPath("a/", Some("/b")) == "a/b"
  {
    calc {
      JoinPath("a/", Some("/b"));
    == { BothSegmentsJoined("a/", "/b"); }
      Collapse("a/" + "/" + "/b");
    == { assert "a/" + "/" + "/b" == "a///b"; }
      Collapse("a///b");
    == { assert "a///b"[1..] == "///b"; }
      "a" + Collapse("///b");
    == { assert "///b"[1..] == "//b"; }
      "a" + Collapse("//b");
    == { assert "//b"[1..] == "/b"; }
      "a" + Collapse("/b");
    == { assert "/b"[1..] == "b"; }
      "a/b";
    }
  }

  /** A top-level "users" stays "users": no leading '/' is added. */
  lemma TopLevelExample()
    ensures JoinPath("", Some("users")) == "users"
  {
    assert Segments("", Some("users")) == ["users"];
    assert NoDoubleSlash("users");
  }

  lemma SingleSlashExample()
    ensures NoDoubleSlash("users/:id")
  {
    var leaf := "users/:id";
    forall i: nat | i + 1 < |leaf|
      ensures !SlashPairAt(leaf, i)
    {
      assert leaf[5] == '/' && leaf[6] == ':';
    }
  }

  /** The child ":id" of "users" resolves to "users/:id". */
  lemma ChildExample()
    ensures JoinPath("users", Some(":id")) == "users/:id"
  {
    calc {
      JoinPath("users", Some(":id"));
    == { BothSegmentsJoined("users", ":id"); }
      Collapse("users" + "/" + ":id");
    == { assert "users" + "/" + ":id" == "users/:id"; }
      Collapse("users/:id");
    == { SingleSlashExample(); }
      "users/:id";
    }
  }
}

=== FILE: root_locator.dfy ===
/** Root detection of vue.js:1-13 (`detectVueRoot`): a breadth-first scan of
    the page's node tree, starting at the given root, for the first node that
    carries one of the framework's instance markers. The queue scan visits the
    tree level by level, so the shallowest marked node wins, and among nodes
    at that depth the leftmost. */
module RootLocator {
  import opened Wrappers

  /** A page node: whether `__vue__`, `__vue_app__` and `_vnode` are set on
      it, and its `childNodes` in document order. */
  datatype DomNode = DomNode(
    vueInstance: bool,
    vueApp: bool,
    vnode: bool,
    childNodes: seq<DomNode>)

  /** The node carries at least one of the three framework markers: a Vue 2
      instance, a Vue 3 application, or a virtual node. */
  predicate Marked(n: DomNode) {
    n.vueInstance || n.vueApp || n.vnode
  }

  predicate NoneMarked(nodes: seq<DomNode>) {
    forall i :: 0 <= i < |nodes| ==> !Marked(nodes[i])
  }

  /** Some node of the subtree, at any depth, is marked. */
  predicate AnyMarked(n: DomNode)
    decreases n
  {
    Marked(n) || AnyMarkedIn(n.childNodes)
  }

  predicate AnyMarkedIn(nodes: seq<DomNode>)
    decreases nodes
  {
    |nodes| > 0 && (AnyMarked(nodes[0]) || AnyMarkedIn(nodes[1..]))
  }

  function Size(n: DomNode): (k: nat)
    ensures k >= 1
    decreases n
  {
    1 + ForestSize(n.childNodes)
  }

  function ForestSize(nodes: seq<DomNode>): nat
    decreases nodes
  {
    if |nodes| == 0 then 0 else Size(nodes[0]) + ForestSize(nodes[1..])
  }

  /** The children of all the given nodes, in order: the next level down. */
  function Kids(nodes: seq<DomNode>): seq<DomNode> {
    if |nodes| == 0 then [] else nodes[0].childNodes + Kids(nodes[1..])
  }

  /** The nodes at depth `d` below `nodes`, left to right. */
  function Level(nodes: seq<DomNode>, d: nat): seq<DomNode>
    decreases d
  {
    if d == 0 then nodes else Level(Kids(nodes), d - 1)
  }

  lemma {:induction false} ForestSizeAppend(a: seq<DomNode>, b: seq<DomNode>)
    ensures ForestSize(a + b) == ForestSize(a) + ForestSize(b)
  {
    if |a| == 0 {
      assert a + b == b;
    } else {
      assert (a + b)[1..] == a[1..] + b;
      ForestSizeAppend(a[1..], b);
    }
  }

  lemma {:induction false} KidsAppend(a: seq<DomNode>, b: seq<DomNode>)
    ensures Kids(a + b) == Kids(a) + Kids(b)
  {
    if |a| == 0 {
      assert a + b == b;
    } else {
      assert (a + b)[1..] == a[1..] + b;
      KidsAppend(a[1..], b);
    }
  }

  lemma {:induction false} KidsSmaller(nodes: seq<DomNode>)
    ensures ForestSize(Kids(nodes)) + |nodes| == ForestSize(nodes)
  {
    if |nodes| > 0 {
      KidsSmaller(nodes[1..]);
      ForestSizeAppend(nodes[0].childNodes, Kids(nodes[1..]));
    }
  }

  lemma {:induction false} LevelNext(nodes: seq<DomNode>, d: nat)
    ensures Level(nodes, d + 1) == Kids(Level(nodes, d))
    decreases d
  {
    if d > 0 {
      LevelNext(Kids(nodes), d - 1);
    }
  }

  lemma {:induction false} LevelEmptyAfter(nodes: seq<DomNode>, d: nat, e: nat)
    requires Level(nodes, d) == []
    requires d <= e
    ensures Level(nodes, e) == []
    decreases e - d
  {
    if d < e {
      LevelNext(nodes, d);
      LevelEmptyAfter(nodes, d + 1, e);
    }
  }

  lemma {:induction false} AnyMarkedInAppend(a: seq<DomNode>, b: seq<DomNode>)
    ensures AnyMarkedIn(a + b) == (AnyMarkedIn(a) || AnyMarkedIn(b))
  {
    if |a| == 0 {
      assert a + b == b;
    } else {
      assert (a + b)[1..] == a[1..] + b;
      AnyMarkedInAppend(a[1..], b);
    }
  }

  /** Something below is marked exactly when this level or the levels below
      it hold a marked node. */
  lemma {:induction false} AnyMarkedInSplit(nodes: seq<DomNode>)
    ensures AnyMarkedIn(nodes) == (!NoneMarked(nodes) || AnyMarkedIn(Kids(nodes)))
  {
    if |nodes| > 0 {
      AnyMarkedInSplit(nodes[1..]);
      AnyMarkedInAppend(nodes[0].childNodes, Kids(nodes[1..]));
      if !NoneMarked(nodes[1..]) {
        var i :| 0 <= i < |nodes[1..]| && Marked(nodes[1..][i]);
        assert Marked(nodes[i + 1]);
      }
      if !NoneMarked(nodes) && !Marked(nodes[0]) {
        var i :| 0 <= i < |nodes| && Marked(nodes[i]);
        assert Marked(nodes[1..][i - 1]);
      }
    }
  }

  /** A marked node somewhere below means a marked node at some level. */
  lemma {:induction false} MarkedAtSomeLevel(nodes: seq<DomNode>) returns (d: nat)
    requires AnyMarkedIn(nodes)
    ensures !NoneMarked(Level(nodes, d))
    decreases ForestSize(nodes)
  {
    AnyMarkedInSplit(nodes);
    if !NoneMarked(nodes) {
      d := 0;
    } else {
      KidsSmaller(nodes);
      var e := MarkedAtSomeLevel(Kids(nodes));
      d := e + 1;
    }
  }

  /** A marked node at some level is a marked node of the tree. */
  lemma {:induction false} MarkedLevelIsMarked(nodes: seq<DomNode>, d: nat)
    requires !NoneMarked(Level(nodes, d))
    ensures AnyMarkedIn(nodes)
    decreases d
  {
    AnyMarkedInSplit(nodes);
    if d > 0 {
      MarkedLevelIsMarked(Kids(nodes), d - 1);
    }
  }

  /** Taking `node` off the front and putting its children at the back
      shrinks the queue by exactly the node itself. */
  lemma DequeueShrinks(node: DomNode, rest: seq<DomNode>)
    ensures ForestSize(rest + node.childNodes) < ForestSize([node] + rest)
  {
    ForestSizeAppend(rest, node.childNodes);
    ForestSizeAppend([node], rest);
    assert ForestSize([node]) == Size(node) + ForestSize([node][1..]);
    assert [node][1..] == [];
  }

  /** The visited part of the level grows by one node, and so do its
      children at the back of the queue. */
  lemma VisitedGrows(level: seq<DomNode>, k: nat)
    requires k < |level|
    ensures Kids(level[..k + 1]) == Kids(level[..k]) + level[k].childNodes
  {
    var node := level[k];
    assert level[..k + 1] == level[..k] + [node];
    KidsAppend(level[..k], [node]);
    assert Kids([node]) == node.childNodes + Kids([node][1..]);
    assert [node][1..] == [];
  }

  /** One dequeue step: the queue's head is the next node of the level, and
      enqueuing its children keeps the queue shaped as "rest of this level,
      then the children of the part already visited", while its size drops. */
  lemma QueueStep(level: seq<DomNode>, k: nat, queue: seq<DomNode>)
    requires k < |level|
    requires queue == level[k..] + Kids(level[..k])
    ensures queue[0] == level[k]
    ensures queue[1..] + level[k].childNodes == level[k + 1..] + Kids(level[..k + 1])
    ensures ForestSize(queue[1..] + level[k].childNodes) < ForestSize(queue)
  {
    var node := level[k];
    var done := Kids(level[..k]);
    assert level[k..] == [node] + level[k + 1..];
    assert queue == [node] + (level[k + 1..] + done);
    assert queue[1..] == level[k + 1..] + done;
    VisitedGrows(level, k);
    DequeueShrinks(node, queue[1..]);
  }

  /** Levels `0..d` are free of marked nodes. */
  predicate CleanUpTo(tree: seq<DomNode>, d: nat) {
    forall e :: 0 <= e < d ==> NoneMarked(Level(tree, e))
  }

  /** Once a level is used up, the queue holds exactly the next level, and
      the used-up level joins the clean ones. */
  lemma LevelDone(tree: seq<DomNode>, d: nat, queue: seq<DomNode>)
    requires queue == Level(tree, d)[|Level(tree, d)|..] + Kids(Level(tree, d)[..|Level(tree, d)|])
    requires CleanUpTo(tree, d) && NoneMarked(Level(tree, d)[..|Level(tree, d)|])
    ensures queue == Level(tree, d + 1)[0..] + Kids(Level(tree, d + 1)[..0])
    ensures CleanUpTo(tree, d + 1) && NoneMarked(Level(tree, d + 1)[..0])
  {
    var level := Level(tree, d);
    assert level[..|level|] == level;
    assert level[|level|..] == [];
    LevelNext(tree, d);
    assert Level(tree, d + 1)[..0] == [];
  }

  /** An empty queue means every level was scanned clean, so nothing in the
      tree is marked. */
  lemma ScanExhausted(tree: seq<DomNode>, d: nat, k: nat)
    requires k <= |Level(tree, d)|
    requires Level(tree, d)[k..] + Kids(Level(tree, d)[..k]) == []
    requires CleanUpTo(tree, d) && NoneMarked(Level(tree, d)[..k])
    ensures forall e: nat :: NoneMarked(Level(tree, e))
    ensures !AnyMarkedIn(tree)
  {
    var level := Level(tree, d);
    assert |level[k..]| == 0;
    assert level[..k] == level;
    LevelNext(tree, d);
    forall e: nat ensures NoneMarked(Level(tree, e)) {
      if e > d {
        LevelEmptyAfter(tree, d + 1, e);
      }
    }
    if AnyMarkedIn(tree) {
      var e := MarkedAtSomeLevel(tree);
      assert false;
    }
  }

  lemma NoneMarkedExtend(level: seq<DomNode>, k: nat)
    requires k < |level|
    requires NoneMarked(level[..k]) && !Marked(level[k])
    ensures NoneMarked(level[..k + 1])
  {
    assert level[..k + 1] == level[..k] + [level[k]];
  }

  /** `detectVueRoot(root)`: the queue scan. On success the node found is
      marked, lies at `depth`, position `index` of its level, and no node of
      an earlier level or earlier at its own level is marked. It finds
      nothing exactly when no node of the tree is marked. */
  method DetectRoot(root: DomNode) returns (found: Option<DomNode>, ghost depth: nat, ghost index: nat)
    ensures found.Some? ==> Marked(found.value)
    ensures found.Some? ==>
      index < |Level([root], depth)| && Level([root], depth)[index] == found.value
    ensures found.Some? ==> forall e :: 0 <= e < depth ==> NoneMarked(Level([root], e))
    ensures found.Some? ==> NoneMarked(Level([root], depth)[..index])
    ensures found.None? ==> forall e: nat :: NoneMarked(Level([root], e))
    ensures found.None? <==> !AnyMarked(root)
  {
    var tree := [root];
    assert AnyMarkedIn(tree) == AnyMarked(root) by {
      assert tree[1..] == [];
    }
    var queue := [root];
    ghost var d: nat := 0;
    ghost var k: nat := 0;
    assert Level(tree, 0)[..0] == [];
    while |queue| > 0
      invariant k <= |Level(tree, d)|
      invariant queue == Level(tree, d)[k..] + Kids(Level(tree, d)[..k])
      invariant CleanUpTo(tree, d) && NoneMarked(Level(tree, d)[..k])
      decreases ForestSize(queue)
    {
      if k == |Level(tree, d)| {
        LevelDone(tree, d, queue);
        d, k := d + 1, 0;
      }
      ghost var level := Level(tree, d);
      QueueStep(level, k, queue);
      var node := queue[0];
      if Marked(node) {
        assert AnyMarkedIn(tree) by {
          MarkedLevelIsMarked(tree, d);
        }
        found, depth, index := Some(node), d, k;
        return;
      }
      NoneMarkedExtend(level, k);
      queue := queue[1..] + node.childNodes;
      k := k + 1;
    }
    ScanExhausted(tree, d, k);
    found, depth, index := None, 0, 0;
  }
}

=== FILE: router.dfy ===
/** The router resolver of vue.js:29-49. Three accessors read the route table
    through different internal paths of the framework instance; they are tried
    in declared order, an accessor that throws is skipped, and the first
    truthy result wins. An array is truthy even when it is empty. */
module RouterResolver {
  import opened Wrappers

  /** What evaluating one accessor did: it threw, it produced a falsy value
      (`undefined` or `null` somewhere along the optional chain), or it
      produced a truthy value. */
  datatype Access<T> = Throws | Falsy | Found(value: T)

  /** The three access paths, in the order the source declares them. */
  datatype Strategy =
    | AppGlobalProperties   // the router reachable from the Vue 3 app's global properties
    | RootOptionsRouter     // the router given in the Vue 2 root instance's options
    | PrivateRouter         // the Vue 2 instance's private router field

  const Strategies: seq<Strategy> := [AppGlobalProperties, RootOptionsRouter, PrivateRouter]

  /** Accessor `i` is the first one, in order, that found something. */
  predicate FirstFoundAt<T>(outcomes: seq<Access<T>>, i: int) {
    0 <= i < |outcomes| && outcomes[i].Found?
    && forall j :: 0 <= j < i ==> !outcomes[j].Found?
  }

  /** The `for ... of` loop with its per-accessor `try`/`catch`: the value of
      the first accessor that found something, or None when none did. */
  function FirstTruthy<T>(outcomes: seq<Access<T>>): (r: Option<T>)
    ensures r.None? <==> forall i :: 0 <= i < |outcomes| ==> !outcomes[i].Found?
    ensures r.Some? ==> exists i :: FirstFoundAt(outcomes, i) && outcomes[i].value == r.value
  {
    if |outcomes| == 0 then None
    else match outcomes[0]
      case Found(v) =>
        assert FirstFoundAt(outcomes, 0);
        Some(v)
      case _ =>
        var r := FirstTruthy(outcomes[1..]);
        assert r.Some? ==> exists i :: FirstFoundAt(outcomes, i) && outcomes[i].value == r.value by {
          if r.Some? {
            var i :| FirstFoundAt(outcomes[1..], i) && outcomes[1..][i].value == r.value;
            assert FirstFoundAt(outcomes, i + 1);
          }
        }
        assert r.None? ==> forall i :: 0 <= i < |outcomes| ==> !outcomes[i].Found? by {
          if r.None? {
            forall i | 0 <= i < |outcomes| ensures !outcomes[i].Found? {
              if i > 0 { assert outcomes[i] == outcomes[1..][i - 1]; }
            }
          }
        }
        r
  }

  function Probes<T>(probe: Strategy -> Access<T>): (outcomes: seq<Access<T>>)
    ensures |outcomes| == |Strategies|
    ensures forall i :: 0 <= i < |Strategies| ==> outcomes[i] == probe(Strategies[i])
  {
    [probe(AppGlobalProperties), probe(RootOptionsRouter), probe(PrivateRouter)]
  }

  /** `resolveVueRouter`: the routes found by the first strategy, in declared
      order, whose accessor yields a truthy value; None only when every
      strategy threw or came back falsy. */
  function ResolveRouter<T>(probe: Strategy -> Access<T>): (r: Option<T>)
    ensures r.None? <==> forall s: Strategy :: !probe(s).Found?
    ensures r.Some? ==>
      exists i :: FirstFoundAt(Probes(probe), i) && probe(Strategies[i]) == Found(r.value)
  {
    var outcomes := Probes(probe);
    var r := FirstTruthy(outcomes);
    assert r.None? ==> forall s: Strategy :: !probe(s).Found? by {
      if r.None? {
        forall s: Strategy ensures !probe(s).Found? {
          assert s == Strategies[0] || s == Strategies[1] || s == Strategies[2];
        }
      }
    }
    r
  }

  /** A probe that exposes only the second strategy's path still succeeds,
      and reports that path's routes. */
  lemma SecondStrategyAlone<T>(probe: Strategy -> Access<T>)
    requires !probe(AppGlobalProperties).Found?
    requires probe(RootOptionsRouter).Found?
    ensures ResolveRouter(probe) == Some(probe(RootOptionsRouter).value)
  {
    var outcomes := Probes(probe);
    SkipsFailedAccessor(outcomes[0], outcomes[1..]);
    assert [outcomes[0]] + outcomes[1..] == outcomes;
  }

  /** An empty routes array is truthy, so it is found and returned. */
  lemma EmptyRoutesAreFound<E>(probe: Strategy -> Access<seq<E>>)
    requires probe(AppGlobalProperties) == Found([])
    ensures ResolveRouter(probe) == Some([])
  {
  }

  /** A throwing or falsy accessor is skipped: the later ones are still tried
      and decide the result alone. */
  lemma {:induction false} SkipsFailedAccessor<T>(head: Access<T>, rest: seq<Access<T>>)
    requires !head.Found?
    ensures FirstTruthy([head] + rest) == FirstTruthy(rest)
  {
    assert ([head] + rest)[1..] == rest;
  }

  /** Accessors after the first one that found something are never
      consulted. */
  lemma {:induction false} LaterAccessorsIgnored<T>(outcomes: seq<Access<T>>, later: seq<Access<T>>)
    requires exists i :: 0 <= i < |outcomes| && outcomes[i].Found?
    ensures FirstTruthy(outcomes + later) == FirstTruthy(outcomes)
  {
    if outcomes[0].Found? {
    } else {
      assert (outcomes + later)[1..] == outcomes[1..] + later;
      var i :| 0 <= i < |outcomes| && outcomes[i].Found?;
      assert outcomes[1..][i - 1].Found?;
      LaterAccessorsIgnored(outcomes[1..], later);
    }
  }
}

=== FILE: routes.dfy ===
/** The route flattener of vue.js:51-76 (`traverseRoutes`). It walks the
    nested route table depth-first in pre-order, emits one display record per
    route and carries the resolved path of the parent down the recursion. */
module Routes {
  import opened Wrappers
  import opened Strings
  import opened Paths
  import ComponentName

  /** A route's `alias`: absent, one path, or an array of paths. */
  datatype Alias = NoAlias | AliasOne(s: string) | AliasList(items: seq<string>)

  /** One entry of the router's route table. `meta` holds the text that
      `JSON.stringify` gives for the meta object; `redirect` holds the string
      form of the redirect target. A missing `children` array is the empty
      sequence: the source treats both alike (no records below the route and
      a children count of 0). */
  datatype RouteNode = RouteNode(
    name: Option<string>,
    path: Option<string>,
    component: ComponentName.ComponentRef,
    redirect: Option<string>,
    alias: Alias,
    meta: Option<string>,
    children: seq<RouteNode>)

  /** The flattened, display-ready row built for one route. */
  datatype RouteRecord = RouteRecord(
    name: string,
    path: string,
    component: string,
    redirect: string,
    alias: string,
    meta: string,
    childrenCount: nat)

  const Unnamed: string := "(unnamed)"
  const EmptyMeta: string := "{}"
  const AliasSeparator: string := ", "

  /** Number of routes in a subtree, the root included. Route tables and
      page trees are different datatypes, so this and `RootLocator.Size`
      count in the same way over different trees. */
  function Size(route: RouteNode): (n: nat)
    ensures n >= 1
    decreases route
  {
    1 + ForestSize(route.children)
  }

  /** Number of routes in a route table, at every depth. */
  function ForestSize(routes: seq<RouteNode>): nat
    decreases routes
  {
    if |routes| == 0 then 0 else Size(routes[0]) + ForestSize(routes[1..])
  }

  lemma {:induction false} ForestSizeAppend(a: seq<RouteNode>, b: seq<RouteNode>)
    ensures ForestSize(a + b) == ForestSize(a) + ForestSize(b)
  {
    if |a| == 0 {
      assert a + b == b;
    } else {
      assert (a + b)[1..] == a[1..] + b;
      ForestSizeAppend(a[1..], b);
    }
  }

  /** The `alias` column: an array is joined with ", ", a single alias is
      kept, and a missing or empty one gives "". */
  function AliasText(alias: Alias): (r: string)
    ensures alias.NoAlias? ==> r == ""
    ensures alias.AliasOne? ==> r == alias.s
    ensures alias.AliasList? && |alias.items| > 0 ==>
      |r| == TotalLength(alias.items) + (|alias.items| - 1) * |AliasSeparator|
    ensures alias.AliasList? && |alias.items| == 0 ==> r == ""
    ensures alias.AliasList? && |alias.items| == 1 ==> r == alias.items[0]
  {
    match alias
    case NoAlias => ""
    case AliasOne(s) => OrElse(Some(s), "")
    case AliasList(items) =>
      JoinWithLength(items, AliasSeparator);
      JoinWith(items, AliasSeparator)
  }

  /** The alias column of an alias array reads back, split on ", ", as the
      array itself, as long as no alias contains ", ". */
  lemma AliasRoundTrip(items: seq<string>)
    requires |items| > 0
    requires forall k :: 0 <= k < |items| ==> Free(items[k], AliasSeparator)
    ensures Split(AliasText(AliasList(items)), AliasSeparator) == items
  {
    SplitJoin(items, AliasSeparator);
  }

  /** The record built for `route` when its parent resolved to `parentPath`:
      the fields take the defaults of vue.js:61-67 when the route leaves them
      out or empty. */
  function MakeRecord(route: RouteNode, parentPath: string): (rec: RouteRecord)
    ensures rec.name != ""
    ensures Truthy(route.name) ==> rec.name == route.name.value
    ensures !Truthy(route.name) ==> rec.name == Unnamed
    ensures rec.path == JoinPath(parentPath, route.path)
    ensures rec.component == ComponentName.Resolve(route.component)
    ensures rec.redirect == route.redirect.GetOr("")
    ensures rec.alias == AliasText(route.alias)
    ensures route.meta.None? ==> rec.meta == EmptyMeta
    ensures route.meta.Some? ==> rec.meta == route.meta.value
    ensures rec.childrenCount == |route.children|
  {
    RouteRecord(
      OrElse(route.name, Unnamed),
      JoinPath(parentPath, route.path),
      ComponentName.Resolve(route.component),
      OrElse(route.redirect, ""),
      AliasText(route.alias),
      route.meta.GetOr(EmptyMeta),
      |route.children|)
  }

  /** `traverseRoutes(routes, callback, parentPath)` with the callback
      collecting records: exactly one record per route, at every depth. */
  function Flatten(routes: seq<RouteNode>, parentPath: string): (out: seq<RouteRecord>)
    ensures |out| == ForestSize(routes)
    decreases routes
  {
    if |routes| == 0 then []
    else FlattenRoute(routes[0], parentPath) + Flatten(routes[1..], parentPath)
  }

  /** The body of the `forEach` callback: the route's own record, then the
      records of its children under the route's resolved path. */
  function FlattenRoute(route: RouteNode, parentPath: string): (out: seq<RouteRecord>)
    ensures |out| == Size(route)
    decreases route
  {
    [MakeRecord(route, parentPath)] + Flatten(route.children, JoinPath(parentPath, route.path))
  }

  /** Siblings keep their source order: flattening a concatenation is the
      concatenation of the flattenings. */
  lemma {:induction false} FlattenAppend(a: seq<RouteNode>, b: seq<RouteNode>, parentPath: string)
    ensures Flatten(a + b, parentPath) == Flatten(a, parentPath) + Flatten(b, parentPath)
  {
    if |a| == 0 {
      assert a + b == b;
    } else {
      assert (a + b)[1..] == a[1..] + b;
      FlattenAppend(a[1..], b, parentPath);
    }
  }

  /** A route comes before everything below it: the first record of a
      subtree is the route's own, the rest are its children's. */
  lemma ParentFirst(route: RouteNode, parentPath: string)
    ensures FlattenRoute(route, parentPath)[0] == MakeRecord(route, parentPath)
    ensures FlattenRoute(route, parentPath)[1..]
      == Flatten(route.children, JoinPath(parentPath, route.path))
  {
  }

  /** Child records build on the parent's resolved record path: the record
      of child `j` sits right after the subtrees of the children before it,
      and is the child's record under the parent record's path. */
  lemma ChildRecordUnderParent(route: RouteNode, parentPath: string, j: nat)
    requires j < |route.children|
    ensures var out := FlattenRoute(route, parentPath);
      var at := 1 + ForestSize(route.children[..j]);
      at < |out| && out[at] == MakeRecord(route.children[j], out[0].path)
      && out[at].path == JoinPath(out[0].path, route.children[j].path)
  {
    var kids := route.children;
    var here := JoinPath(parentPath, route.path);
    assert kids == kids[..j] + kids[j..];
    FlattenAppend(kids[..j], kids[j..], here);
    assert kids[j..][1..] == kids[j + 1..];
    assert Flatten(kids[j..], here) == FlattenRoute(kids[j], here) + Flatten(kids[j + 1..], here);
  }

  /** A route in pre-order, with the own path segments of all its
      ancestors, outermost first. */
  datatype Entry = Entry(route: RouteNode, ancestors: seq<Option<string>>)

  /** Reference pre-order listing of a route table: each route before its
      children, siblings in source order. */
  function PreOrder(routes: seq<RouteNode>, ancestors: seq<Option<string>>): (es: seq<Entry>)
    decreases routes
  {
    if |routes| == 0 then []
    else PreOrderRoute(routes[0], ancestors) + PreOrder(routes[1..], ancestors)
  }

  function PreOrderRoute(route: RouteNode, ancestors: seq<Option<string>>): (es: seq<Entry>)
    decreases route
  {
    [Entry(route, ancestors)] + PreOrder(route.children, ancestors + [route.path])
  }

  /** The record of an entry: its route under the canonical path of its
      ancestors. */
  function EntryRecord(e: Entry): RouteRecord {
    MakeRecord(e.route, ChainPath(e.ancestors))
  }

  /** Flattening lists one record per route in pre-order, and each record's
      path is the canonical join of all its ancestors' segments and its own:
      the nesting associativity of the path join. */
  lemma {:induction false} FlattenIsPreOrder(routes: seq<RouteNode>, ancestors: seq<Option<string>>)
    ensures |Flatten(routes, ChainPath(ancestors))| == |PreOrder(routes, ancestors)|
    ensures forall i :: 0 <= i < |PreOrder(routes, ancestors)| ==>
      Flatten(routes, ChainPath(ancestors))[i] == EntryRecord(PreOrder(routes, ancestors)[i])
    decreases routes
  {
    if |routes| > 0 {
      FlattenRouteIsPreOrder(routes[0], ancestors);
      FlattenIsPreOrder(routes[1..], ancestors);
    }
  }

  lemma {:induction false} FlattenRouteIsPreOrder(route: RouteNode, ancestors: seq<Option<string>>)
    ensures |FlattenRoute(route, ChainPath(ancestors))| == |PreOrderRoute(route, ancestors)|
    ensures forall i :: 0 <= i < |PreOrderRoute(route, ancestors)| ==>
      FlattenRoute(route, ChainPath(ancestors))[i] == EntryRecord(PreOrderRoute(route, ancestors)[i])
    decreases route
  {
    var here := ChainPath(ancestors);
    var below := ancestors + [route.path];
    JoinPathExtendsChain(ancestors, route.path);
    var fc := Flatten(route.children, ChainPath(below));
    var pc := PreOrder(route.children, below);
    FlattenIsPreOrder(route.children, below);
    var f := FlattenRoute(route, here);
    var p := PreOrderRoute(route, ancestors);
    assert f == [MakeRecord(route, here)] + fc;
    assert p == [Entry(route, ancestors)] + pc;
    forall i | 0 <= i < |p| ensures f[i] == EntryRecord(p[i]) {
      if i > 0 {
        assert f[i] == fc[i - 1];
        assert p[i] == pc[i - 1];
      }
    }
  }

  /** Every route of the table is listed exactly once. */
  lemma {:induction false} PreOrderCount(routes: seq<RouteNode>, ancestors: seq<Option<string>>)
    ensures |PreOrder(routes, ancestors)| == ForestSize(routes)
    decreases routes
  {
    if |routes| > 0 {
      PreOrderRouteCount(routes[0], ancestors);
      PreOrderCount(routes[1..], ancestors);
    }
  }

  lemma {:induction false} PreOrderRouteCount(route: RouteNode, ancestors: seq<Option<string>>)
    ensures |PreOrderRoute(route, ancestors)| == Size(route)
    decreases route
  {
    PreOrderCount(route.children, ancestors + [route.path]);
  }

  /** The whole table from the top (`parentPath` defaults to ''): record `i`
      is built from the `i`-th route in pre-order, its path is the canonical
      join of its ancestor chain, and its children count is that route's
      number of direct children. */
  lemma TopLevelFlatten(routes: seq<RouteNode>)
    ensures |Flatten(routes, "")| == |PreOrder(routes, [])| == ForestSize(routes)
    ensures forall i :: 0 <= i < |Flatten(routes, "")| ==>
      var e := PreOrder(routes, [])[i];
      Flatten(routes, "")[i] == EntryRecord(e)
      && Flatten(routes, "")[i].path == ChainPath(e.ancestors + [e.route.path])
      && Flatten(routes, "")[i].childrenCount == |e.route.children|
  {
    assert ChainPath([]) == "";
    FlattenIsPreOrder(routes, []);
    PreOrderCount(routes, []);
    forall i | 0 <= i < |Flatten(routes, "")|
      ensures Flatten(routes, "")[i].path
        == ChainPath(PreOrder(routes, [])[i].ancestors + [PreOrder(routes, [])[i].route.path])
    {
      var e := PreOrder(routes, [])[i];
      JoinPathExtendsChain(e.ancestors, e.route.path);
    }
  }

  /** A two-level table: "users" keeps no leading slash, and its child
      ":id" resolves to "users/:id". */
  lemma NestedExample()
    ensures var detail := RouteNode(Some("user-detail"), Some(":id"),
        ComponentName.StringRef("UserDetail"), None, NoAlias, None, []);
      var users := RouteNode(None, Some("users"), ComponentName.Absent, None, NoAlias, None, [detail]);
      var out := Flatten([users], "");
      |out| == 2
      && out[0] == RouteRecord(Unnamed, "users", ComponentName.NoComponent, "", "", EmptyMeta, 1)
      && out[1] == RouteRecord("user-detail", "users/:id", "UserDetail", "", "", EmptyMeta, 0)
  {
    var detail := RouteNode(Some("user-detail"), Some(":id"),
      ComponentName.StringRef("UserDetail"), None, NoAlias, None, []);
    var users := RouteNode(None, Some("users"), ComponentName.Absent, None, NoAlias, None, [detail]);
    var top := "users";
    TopLevelExample();
    ChildExample();
    var r0 := MakeRecord(users, "");
    var r1 := MakeRecord(detail, top);
    assert r0 == RouteRecord(Unnamed, "users", ComponentName.NoComponent, "", "", EmptyMeta, 1);
    assert r1 == RouteRecord("user-detail", "users/:id", "UserDetail", "", "", EmptyMeta, 0);
    assert FlattenRoute(detail, top) == [r1];
    assert Flatten([detail], top) == [r1];
    assert FlattenRoute(users, "") == [r0, r1];
    assert Flatten([users], "") == [r0, r1];
  }

  /** An alias array ["a", "b"] is shown as "a, b". */
  lemma AliasExample()
    ensures AliasText(AliasList(["a", "b"])) == "a, b"
  {
    JoinWithCons("a", ["b"], AliasSeparator);
    assert ["a"] + ["b"] == ["a", "b"];
  }
}

=== FILE: strings.dfy ===
/** String helpers shared by the route flattener and the CSV exporter.
    Strings are sequences of characters; JavaScript truthiness of an optional
    string is "present and not empty". */
module Strings {
  import opened Wrappers

  /** JavaScript truthiness of a string value that may be `undefined`:
      both `undefined` and `''` are falsy. */
  predicate Truthy(o: Option<string>) {
    o.Some? && o.value != ""
  }

  /** `a || b` for an optional string `a` and a string `b`. */
  function OrElse(o: Option<string>, fallback: string): (r: string)
    ensures Truthy(o) ==> r == o.value
    ensures !Truthy(o) ==> r == fallback
  {
    if Truthy(o) then o.value else fallback
  }

  /** `Array.prototype.join(sep)` over an array of strings. */
  function JoinWith(parts: seq<string>, sep: string): (r: string)
    ensures |parts| == 0 ==> r == ""
    ensures |parts| == 1 ==> r == parts[0]
  {
    if |parts| == 0 then ""
    else if |parts| == 1 then parts[0]
    else parts[0] + sep + JoinWith(parts[1..], sep)
  }

  /** Sum of the lengths of the parts. */
  function TotalLength(parts: seq<string>): nat
  {
    if |parts| == 0 then 0 else |parts[0]| + TotalLength(parts[1..])
  }

  /** A joined string holds every part plus one separator between each
      neighbouring pair, and nothing else. */
  lemma {:induction false} JoinWithLength(parts: seq<string>, sep: string)
    ensures |parts| > 0 ==> |JoinWith(parts, sep)| == TotalLength(parts) + (|parts| - 1) * |sep|
    ensures |parts| == 0 ==> JoinWith(parts, sep) == ""
  {
    if |parts| > 1 {
      JoinWithLength(parts[1..], sep);
    }
  }

  /** Joining with a leading element puts that element, then the separator,
      in front of the join of the rest. */
  lemma JoinWithCons(first: string, rest: seq<string>, sep: string)
    requires |rest| > 0
    ensures JoinWith([first] + rest, sep) == first + sep + JoinWith(rest, sep)
  {
    assert ([first] + rest)[1..] == rest;
  }

  /** A character that is in no part and not in the separator is not in
      the joined text either: joining adds only separators. */
  lemma {:induction false} JoinWithAvoids(parts: seq<string>, sep: string, c: char)
    requires c !in sep
    requires forall k :: 0 <= k < |parts| ==> c !in parts[k]
    ensures c !in JoinWith(parts, sep)
  {
    if |parts| > 1 {
      assert forall k :: 0 <= k < |parts[1..]| ==> parts[1..][k] == parts[k + 1];
      JoinWithAvoids(parts[1..], sep, c);
    }
  }

  /** `sep` occurs in `s` starting at position `i`. */
  predicate OccursAt(s: string, sep: string, i: nat) {
    i + |sep| <= |s| && s[i..i + |sep|] == sep
  }

  /** `sep` occurs nowhere in `s`. */
  predicate Free(s: string, sep: string) {
    forall i: nat :: i <= |s| ==> !OccursAt(s, sep, i)
  }

  /** `String.prototype.split(sep)` for a non-empty separator: the pieces
      between the occurrences of `sep`, found left to right without
      overlapping. A string without `sep` is one piece. */
  function Split(s: string, sep: string): (pieces: seq<string>)
    requires |sep| > 0
    ensures |pieces| > 0
    decreases |s|
  {
    if |s| == 0 then [""]
    else if OccursAt(s, sep, 0) then [""] + Split(s[|sep|..], sep)
    else
      var rest := Split(s[1..], sep);
      [[s[0]] + rest[0]] + rest[1..]
  }

  lemma FreeTail(x: string, sep: string)
    requires |x| > 0 && Free(x, sep)
    ensures Free(x[1..], sep)
  {
    forall i: nat | i <= |x[1..]| ensures !OccursAt(x[1..], sep, i) {
      assert !OccursAt(x, sep, i + 1);
      if i + |sep| <= |x[1..]| {
        assert x[1..][i..i + |sep|] == x[i + 1..i + 1 + |sep|];
      }
    }
  }

  /** A string free of the separator splits into itself. */
  lemma {:induction false} SplitFree(x: string, sep: string)
    requires |sep| > 0 && Free(x, sep)
    ensures Split(x, sep) == [x]
    decreases |x|
  {
    if |x| > 0 {
      assert !OccursAt(x, sep, 0);
      FreeTail(x, sep);
      SplitFree(x[1..], sep);
      assert x == [x[0]] + x[1..];
    }
  }

  /** Splitting `x + sep + y` cuts at the separator after `x` when `x` is
      free of it and the separator is two different characters, so that no
      occurrence can straddle the end of `x`. */
  lemma {:induction false} SplitAfterFree(x: string, sep: string, y: string)
    requires |sep| == 2 && sep[0] != sep[1] && Free(x, sep)
    ensures Split(x + sep + y, sep) == [x] + Split(y, sep)
    decreases |x|
  {
    var s := x + sep + y;
    if |x| == 0 {
      assert s == sep + y;
      assert OccursAt(s, sep, 0) by {
        assert s[0..2] == sep;
      }
      assert s[|sep|..] == y;
    } else {
      assert !OccursAt(s, sep, 0) by {
        if |x| == 1 {
          assert s[1] == sep[0];
        } else {
          assert !OccursAt(x, sep, 0);
          assert s[0..2] == x[0..2];
        }
      }
      FreeTail(x, sep);
      SplitAfterFree(x[1..], sep, y);
      assert s[1..] == x[1..] + sep + y;
      assert x == [x[0]] + x[1..];
    }
  }

  /** Splitting a join gives the parts back when no part contains the
      separator (a two-character separator of two different characters,
      such as ", "). */
  lemma {:induction false} SplitJoin(parts: seq<string>, sep: string)
    requires |sep| == 2 && sep[0] != sep[1]
    requires |parts| > 0
    requires forall k :: 0 <= k < |parts| ==> Free(parts[k], sep)
    ensures Split(JoinWith(parts, sep), sep) == parts
  {
    if |parts| == 1 {
      SplitFree(parts[0], sep);
    } else {
      SplitJoin(parts[1..], sep);
      SplitAfterFree(parts[0], sep, JoinWith(parts[1..], sep));
      assert parts == [parts[0]] + parts[1..];
    }
  }

  /** Dropping the head of a concatenation whose left part is non-empty. */
  lemma TailAppend<T>(x: seq<T>, y: seq<T>)
    requires |x| > 0
    ensures (x + y)[0] == x[0] && (x + y)[1..] == x[1..] + y
    ensures |x| > 1 ==> (x + y)[1] == x[1]
  {
  }

  /** Regrouping one element in front of a concatenation. */
  lemma ConsAppend<T>(a: T, c: seq<T>, y: seq<T>)
    ensures ([a] + c) + y == [a] + (c + y)
    ensures ([a] + (c + y))[1..] == c + y
    ensures |c| > 0 ==> ([a] + (c + y))[1] == c[0]
  {
  }

  /** `String.prototype.toLowerCase` restricted to ASCII letters. */
  function LowerChar(c: char): (r: char)
    ensures 'A' <= c <= 'Z' ==> 'a' <= r <= 'z' && r as int == c as int + 32
    ensures !('A' <= c <= 'Z') ==> r == c
  {
    if 'A' <= c <= 'Z' then (c as int - 'A' as int + 'a' as int) as char else c
  }

  /** Lower-cases every ASCII capital of `s`, position by position; no
      capital is left afterwards. */
  function Lower(s: string): (r: string)
    ensures |r| == |s|
    ensures forall i :: 0 <= i < |s| ==> r[i] == LowerChar(s[i])
    ensures forall i :: 0 <= i < |r| ==> !('A' <= r[i] <= 'Z')
  {
    seq(|s|, i requires 0 <= i < |s| => LowerChar(s[i]))
  }

  /** Lower-casing twice is lower-casing once. */
  lemma LowerIdempotent(s: string)
    ensures Lower(Lower(s)) == Lower(s)
  {
    var once := Lower(s);
    forall i | 0 <= i < |once| ensures Lower(once)[i] == once[i] {
      assert !('A' <= once[i] <= 'Z');
    }
  }
}

=== FILE: wrappers.dfy ===
/** The Some/None datatype used for JavaScript values that may be `undefined`
    or `null`, and for the "not found" results of the pipeline. */
module Wrappers {

  datatype Option<+T> = None | Some(value: T) {

    /** Returns the value held in Some, or `default` for None. */
    function GetOr(default: T): T {
      match this
      case Some(v) => v
      case None => default
    }
  }
}
